=== FILE: README.md ===
# Display indexing of the Secret Network Ledger app

This project models the display engine of the Secret Network Ledger application
(`app/src/tx_display.c`). The engine turns a parsed JSON sign request into a flat list of
numbered pages on the device screen. It does this in four steps:

- **Index the root fields.** `tx_indexRootFields` looks up the seven required root fields
  (`chain_id`, `account_number`, `sequence`, `fee`, `memo`, `msgs`, `tip`) and records
  where each one starts. It counts each field's sub-items in a `uint8_t`. Over the `msgs`
  field it tracks two grouping axes, message type and message sender. It then classifies
  the chain id against `secret-4` (`COIN_DEFAULT_CHAINID`).
- **Decide what is visible.** `get_subitem_count` decides how many pages of each field are
  shown. Outside expert mode it hides chain id, account number and sequence, and forces a
  single fee page. It also collapses grouped messages. Expert mode is the user's
  preference, or any chain other than the default.
- **Resolve a page.** `retrieve_tree_indexes`, `tx_display_numItems` and `tx_display_query`
  map a flat page index back to a field and a sub-item, and ask the JSON engine for it.
- **Label the page.** `tx_display_make_friendly` replaces the key path with a
  human-readable label from a fixed table.

Modules, in dependency order:

| module | file | what it holds |
|---|---|---|
| `ParserTypes` | parser_types.dfy | error codes, `Result`/`Option`, `uint8_t` wrap-around (`ToU8`) |
| `RootFields` | root_fields.dfy | the root-field enumeration, key table and query depth |
| `TokenQuery` | token_query.dfy | what the JSON token engine answers, as data: per field either a lookup error or the rendered sub-items and the error that ends iteration; the chain id answer; the query function; the schema constants defined outside this file; the device (expert preference, own address) |
| `Grouping` | grouping.dfy | the type and sender grouping axes, step by step and in closed form |
| `Indexing` | indexing.dfy | the display cache, the build, the chain classifier and the expert gate |
| `IndexingFacts` | indexing_facts.dfy | field-by-field characterisation of what a build records |
| `Visibility` | visibility.dfy | `get_subitem_count` |
| `MsgsPages` | msgs_pages.dfy | the msgs page count in closed form |
| `Resolver` | resolver.dfy | `retrieve_tree_indexes`, as written and corrected |
| `Display` | display.dfy | `tx_display_numItems`, `tx_display_query` |
| `Labels` | labels.dfy | `key_substitutions`, `tx_display_make_friendly` |
| `StaleCache` | stale_cache.dfy | the cache left behind when chain classification fails |

The global state (`display_cache`, `parser_tx_obj.flags`, the filter counters) is modelled
as an immutable `Session` value. Every entry point takes a session and returns the session
it leaves behind. That is how "build once, then read" is expressed: a valid session makes
`IndexRootFields` the identity.

## Model

| member | source | states |
|---|---|---|
| ParserTypes.ToU8 | app/src/tx_display.c:330 | a `uint8_t` increment keeps the counter below 256, differs from the exact value by a multiple of 256, and leaves in-range values unchanged |
| RootFields.FromIndex | app/src/tx_display.c:224-227 | iterating enum values 0..6 visits each root field once; `FromIndex` inverts `Index` |
| RootFields.RequiredKey | app/src/tx_display.c:30-49 | the JSON key of each root field (a table with no contract of its own; `RootTable` states that it is injective) |
| RootFields.MaxLevel | app/src/tx_display.c:54-73 | fee and tip are traversed to depth 1, every other field to depth 2 |
| RootFields.RootTable | app/src/tx_display.c:30-49 | distinct root fields have distinct JSON keys, and enum values round-trip |
| Grouping.Truncate | app/src/tx_display.c:310 | copying a sender into its reference buffer keeps a prefix of it: the whole value when it fits, otherwise exactly buffer size - 1 characters |
| Grouping.StepType | app/src/tx_display.c:285-304 | one type item: it fails with `parser_unexpected_type` iff the axis is on, has no matches yet and the value does not fit its buffer. A non-type item or an axis that is off changes nothing. Otherwise the axis stays on iff it had no matches or the value equals the reference, with the value as reference and one more match; a mismatch switches it off with count 1 |
| Grouping.StepFrom | app/src/tx_display.c:307-321 | one sender item: a non-sender item or an axis that is off changes nothing. Otherwise the axis stays on iff the value equals the reference, where a first value is compared with its truncated copy, so it stays on iff it fits. On: one more match, with the value as reference. Off: count 1 |
| Grouping.ObserveMsg | app/src/tx_display.c:284-321 | both passes for one msgs item fail only as the type pass does, with `parser_unexpected_type`; an item that is not a type item leaves the type axis alone, and one that is not a sender item leaves the sender axis alone |
| Grouping.FoldTypeSeeded | app/src/tx_display.c:297-303 | once a type reference is set, the axis stays on iff every later type value equals it; one mismatch leaves it off with count 1 |
| Grouping.FoldTypeFresh | app/src/tx_display.c:284-304 | over a whole msgs field: no type values leaves the axis fresh; a first type value that does not fit its buffer fails with `parser_unexpected_type`; otherwise the axis is on iff all type values equal the first, counting all of them, with the first type item as representative |
| Grouping.FoldFromSeeded | app/src/tx_display.c:314-320 | the sender analogue of the seeded type fold |
| Grouping.FoldFromFresh | app/src/tx_display.c:306-321 | over a whole msgs field the sender axis is on iff the first sender fits its buffer and all senders equal it; a truncated reference never matches, so an over-long sender switches grouping off |
| Grouping.FoldType | app/src/tx_display.c:284-304 | the type pass over the msgs field, by recursion over its items (no contract of its own; `FoldTypeFresh` and `FoldTypeSeeded` state what it computes) |
| Grouping.FoldFrom | app/src/tx_display.c:306-321 | the sender pass over the msgs field, by recursion over its items (no contract of its own; `FoldFromFresh` and `FoldFromSeeded` state what it computes) |
| Indexing.CountItems | app/src/tx_display.c:244-332 | a field's recorded count is a `uint8_t`, and only msgs changes the grouping axes |
| Indexing.FieldResult | app/src/tx_display.c:229-243 | a lookup error skips the field as absent with unchanged axes iff it is `parser_no_data`, and aborts otherwise; a located field is marked present at its start token with a `uint8_t` count; only msgs changes the axes |
| Indexing.IndexFrom | app/src/tx_display.c:224-339 | the field loop, defined by recursion over the enum values (no contract of its own; `IndexFromOutcome` and `IndexFromValue` state what it computes) |
| Indexing.AddressMatchesOwn | app/src/tx_display.c:183-191 | a missing own address never matches; otherwise the address must equal it (a definition; `BuiltCache` states where it is used) |
| Indexing.IsExpertMode | app/src/tx_display.c:369-371 | expert mode on a built cache: the preference or a chain other than the default (a definition; `TxIsExpertMode` states how the entry point reaches it) |
| IndexingFacts.Halt | app/src/tx_display.c:258-276 | the stop position is the first sub-item at or after the start that the engine cannot render or (memo only) whose value is empty, or the end when there is none |
| IndexingFacts.CountPlain | app/src/tx_display.c:245-278 | for a field other than msgs: the count is the number of sub-items before the first unrenderable item or empty memo value, modulo 256. An unrenderable item aborts with its error. The engine's final error ends the field only if it is `parser_query_no_results` or `parser_no_data` |
| IndexingFacts.CountPlainRun | app/src/tx_display.c:258-278 | each sub-item counted before the halting point adds one to the `uint8_t` count, and the halting point stays where it was |
| IndexingFacts.CountMsgs | app/src/tx_display.c:279-331 | when every msgs sub-item renders, the count is their number modulo 256 and the axes are the whole-field type and sender folds |
| IndexingFacts.CountRenderFailure | app/src/tx_display.c:263-267 | one unrenderable sub-item in msgs or any non-memo field fails the build |
| IndexingFacts.FieldIgnoresAxes | app/src/tx_display.c:271-328 | every field other than msgs comes out the same whatever the grouping state |
| IndexingFacts.FieldStep | app/src/tx_display.c:224-243 | each loop iteration records the field's own outcome, and the axes stay fresh until msgs is counted |
| IndexingFacts.IndexFromOutcome | app/src/tx_display.c:224-238 | the field loop succeeds iff every field succeeds on its own; otherwise it fails with the error of the first failing field |
| IndexingFacts.IndexFromValue | app/src/tx_display.c:235-338 | on success each entry is that field's own outcome, the total grows by their counts, and the axes are those msgs produced |
| IndexingFacts.TotalFits | app/src/tx_display.c:338 | the sum of seven `uint8_t` counts is at most 7 * 255, so the `uint16_t` total cannot wrap |
| IndexingFacts.CountSumCovers | app/src/tx_display.c:338 | no single field records more pages than the total |
| IndexingFacts.BuiltCache | app/src/tx_display.c:193-362 | a build from an invalid session succeeds iff every field and the chain id succeed. Its entries are the fields' own outcomes, with absent fields zeroed. Its total is their sum. Sender grouping is off in expert mode. Hide-all is set iff the sender reference is the device's own address |
| Indexing.Complete | app/src/tx_display.c:341-359 | after the loop the chain is default iff its id is `secret-4`; the entries, total and type axis are carried over unchanged; the sender axis is carried over, switched off in expert mode; hide-all tracks the own-address match |
| Indexing.IndexRootFields | app/src/tx_display.c:193-362 | (corrected: the source sets `cache_valid` at line 341, before line 343 can fail) a valid session is returned unchanged. The session is valid iff the build succeeded. A failed build leaves the session as it was. The default-chain flag is set iff the chain id is `secret-4`. The gate "expert mode implies no sender grouping" is preserved |
| Indexing.IndexRootFieldsAsWritten | app/src/tx_display.c:341-343 | as written, a chain-id failure still reports an error; when the chain id renders, the result matches the corrected build |
| Indexing.TxIsExpertMode | app/src/tx_display.c:364-371 | with the preference set the answer is true and the session is not touched (the C `or` short-circuits). Otherwise the cache is built first. On a valid session the answer is "not the default chain". After a fresh build it is "a chain id other than `secret-4`". When the build fails the answer is false, because the error code converts to `true` |
| Visibility.GroupingAdjustment | app/src/tx_display.c:388-399 | grouping never adds msgs pages: it removes at most the matches of the two axes, and nothing when both axes are off |
| Visibility.SubitemCount | app/src/tx_display.c:373-416 | the visible count of each field. With an empty cache it is 0. Outside expert mode chain id, account number and sequence show 0 and fee shows exactly 1. Memo, tip, and every non-msgs field in expert mode show their recorded count. Msgs shows its count adjusted by grouping, wrapped to `uint8_t` |
| Visibility.VisibleAt | app/src/tx_display.c:423 | the visible-count vector holds each field's `get_subitem_count` at its enum position |
| Visibility.NonDefaultChainDisclosesAll | app/src/tx_display.c:369-371 | on a chain other than `secret-4` the session is in expert mode, sender grouping is off, and chain id, account number, sequence and fee show every recorded page |
| Visibility.FeePageWithoutFee | app/src/tx_display.c:404-407 | on the default chain outside expert mode, a transaction without a fee still shows one fee page whenever anything else has pages |
| MsgsPages.Partition | app/src/tx_display.c:285-307 | with disjoint key kinds, every msgs sub-item is a type item, a sender item or neither |
| MsgsPages.MsgsField | app/src/tx_display.c:279-332 | a successful msgs count means every sub-item rendered; the count and axes are the whole-field folds |
| MsgsPages.VisibleMsgs | app/src/tx_display.c:388-400 | for a msgs field with fewer than 256 sub-items and no key that is both a type key and a sender key: the msgs page count after a build, in closed form. It is the number of plain items, plus one page for all type items when they agree (each type item otherwise), plus one page for all senders when they are grouped (none when they are the device's own address, each sender otherwise) |
| MsgsPages.MsgsCount | app/src/tx_display.c:375-400 | the same closed form for any built session whose msgs entry and axes are the whole-field count and folds, with "grouped senders" read as "not in expert mode" |
| MsgsPages.TypeReferenceOverflow | app/src/tx_display.c:284-291 | when every field before msgs indexes, a first type value too long for its buffer fails the build with `parser_unexpected_type` and leaves the session invalid. Only the msgs sub-items up to that first type item need to render and none of them may be a type item; what follows is never read |
| MsgsPages.CountUntilOverflow | app/src/tx_display.c:245-291 | counting msgs with the type axis untouched fails with `parser_unexpected_type` at the first type item whose value does not fit its buffer, whatever the sub-items after it are and whatever the sender axis holds |
| Resolver.Skip | app/src/tx_display.c:423-425 | skipping empty fields lands on the first field with pages at or after the start, or past the end |
| Resolver.Walk | app/src/tx_display.c:427-438 | the walk never moves back past its starting field nor beyond the end, and while it stays on its starting field each step moves one sub-item on |
| Resolver.WalkKeeps | app/src/tx_display.c:427-438 | each step of the walk advances the flat position by one page and stays on a visible sub-item until the pages run out |
| Resolver.ResolveAsWritten | app/src/tx_display.c:440-442 | with the guard `>`, the root index can reach 7, one past the last field |
| Resolver.Resolve | app/src/tx_display.c:418-445 | (corrected guard) an index resolves iff it is below the page total; it then names a visible sub-item whose flat position (pages before its field plus its sub-index) is the index; otherwise `parser_no_data` |
| Resolver.ResolveAt | app/src/tx_display.c:418-445 | conversely, the flat position of every visible sub-item resolves back to that field and sub-item |
| Resolver.PageUnique | app/src/tx_display.c:427-438 | a flat position names at most one (field, sub-item) pair |
| Resolver.LastPage | app/src/tx_display.c:427-438 | the last page is the last sub-item of the last field with pages |
| Resolver.AsWrittenAgreesBelowTotal | app/src/tx_display.c:468-474 | below the page total the as-written and corrected resolvers agree, so the range check in `tx_display_query` masks the off-by-one |
| Resolver.AsWrittenAdmitsPastEnd | app/src/tx_display.c:440-442 | at or past the total the as-written resolver reports success with root 7, and the corrected one fails |
| Display.SumPages | app/src/tx_display.c:451-454 | the running page sum is a `uint8_t` |
| ParserTypes.ToU8Add | app/src/tx_display.c:453 | wrapping an intermediate sum to `uint8_t` does not change the wrapped result |
| Display.SumPagesWraps | app/src/tx_display.c:451-454 | summing with wrap-around after every field gives the page total modulo 256 |
| Display.PageCount | app/src/tx_display.c:447-457 | the page count is the total of visible counts modulo 256 |
| Display.TxDisplayNumItems | app/src/tx_display.c:447-457 | numItems builds first, reports a build error unchanged, and otherwise answers the visible total modulo 256 |
| Display.Answer | app/src/tx_display.c:465-493 | an index at or past the page count is out of range; a successful answer has an index below the page total |
| Display.SubItem | app/src/tx_display.c:478-491 | an absent field answers `parser_no_data`; a hit comes only from a present field, from the engine's search at the field's start token and depth |
| Display.TxDisplayQuery | app/src/tx_display.c:460-494 | the query builds first and reports a build error; on a built session an index at or past numItems is `parser_display_idx_out_of_range` |
| Display.AnswerPage | app/src/tx_display.c:472-491 | the page at flat position (pages before `root`) + `sub` asks the engine for sub-item `sub` of `root`, from its start token and at its depth, or answers `parser_no_data` if `root` is absent |
| Display.QueryAnswers | app/src/tx_display.c:460-494 | after a successful build, querying the flat position (pages before `root`) + `sub` of a visible sub-item answers exactly `SubItem` for `root` and `sub`: the engine's search for that sub-item, or `parser_no_data` when the field is absent |
| Display.AbsentPageNoData | app/src/tx_display.c:485-487 | the first page of a visible field the transaction lacks answers `parser_no_data` |
| Display.FeePageAnswersNoData | app/src/tx_display.c:485-487 | the fee page shown for a transaction without a fee answers `parser_no_data` |
| Display.BuildIdempotent | app/src/tx_display.c:193-196 | building again from the session a build returned changes nothing, after success or failure |
| Display.QueryStable | app/src/tx_display.c:460-494 | repeating a query gives the same answer and session |
| Labels.FirstMatch | app/src/tx_display.c:597-602 | the table scan returns the first entry whose raw key equals the key, and none exactly when no entry does |
| Labels.Relabel | app/src/tx_display.c:587-606 | the wasm message key of a transaction with a decryption key becomes "Decrypted Msg". Any other key becomes the label of its first table entry, or stays as it is when no entry matches |
| Labels.TxDisplayMakeFriendly | app/src/tx_display.c:587-589 | relabelling builds first; a failed build reports its error and changes no key |
| Labels.LaterDuplicateUnused | app/src/tx_display.c:597-602 | of two entries with the same raw key, the later one is never used |
| Labels.KeySubstitutions | app/src/tx_display.c:510-583 | the raw-key to label table, entry for entry in source order (no contract of its own; `TableQuirks` and `RootKeysLabelled` state its entries) |
| Labels.Friendly | app/src/tx_display.c:590-603 | the label of an output key: `Relabel` over the real table (no contract of its own; `Relabel` and `FirstMatch` state the lookup) |
| Labels.TableQuirks | app/src/tx_display.c:510-583 | "msgs/value/amount" appears twice (entries 17 and 48), and "msgs/value/voter" shares the label "Description" with "msgs/value/description" |
| Labels.RootKeysLabelled | app/src/tx_display.c:511-514 | chain id, account number, sequence and memo are shown as "Chain ID", "Account", "Sequence" and "Memo" |
| Labels.FirstMatchAppend | app/src/tx_display.c:597-602 | scanning two tables in sequence finds the first table's match if it has one, and otherwise the second table's match shifted past the first |
| Labels.FirstMatchKeeps | app/src/tx_display.c:597-602 | entries after a match never change it |
| Labels.FirstMatchNone | app/src/tx_display.c:597-602 | a key neither part of a table matches is unmatched in the whole table |
| Labels.RelabelKeeps | app/src/tx_display.c:597-602 | appending entries to a table does not change the label of a key the table already lists |
| Labels.RelabelSkips | app/src/tx_display.c:597-602 | entries in front of a table that do not list a key do not change its label |
| Labels.LabelFromTransferGroup | app/src/tx_display.c:524-533 | a key first listed among the bank and staking entries takes its label from them |
| Labels.LabelFromWasmExecuteGroup | app/src/tx_display.c:535-539 | a key first listed among the MsgWasmExecute entries takes its label from them |
| Labels.LabelFromGovernanceGroup | app/src/tx_display.c:573-582 | a key listed only among the governance entries takes its label from them |
| Labels.LabelUnlisted | app/src/tx_display.c:596-603 | a key no entry lists is shown as it is, unless it is the decrypted wasm message |
| Labels.AmountLabelled | app/src/tx_display.c:531 | "msgs/value/amount" reads "Amount", from its first entry |
| Labels.VoterLabelled | app/src/tx_display.c:581 | "msgs/value/voter" reads "Description" |
| Labels.UnlistedKeyUnchanged | app/src/tx_display.c:596-603 | a key the table does not list (a field inside a contract call) is shown unchanged |
| Labels.DecryptedOverridesTable | app/src/tx_display.c:590-593 | taking `key_wasm_msg` to be "msgs/value/msg" (it is defined outside this file): with a decryption key that key reads "Decrypted Msg", even though the table lists it; without one it reads its table label "Message" |
| StaleCache.ChainFailureLeavesStaleCache | app/src/tx_display.c:341-343 | as written, a chain-id failure after a successful field loop leaves a valid session in expert mode with sender grouping still on, which every later build accepts; the corrected build leaves the session invalid |
| StaleCache.SendersCollapseInExpertMode | app/src/tx_display.c:341-353 | a concrete transaction: two identical senders and an unrenderable chain id give one msgs page in expert mode as written, and an invalid session when corrected |

The default chain id `"secret-4"` is `COIN_DEFAULT_CHAINID` of `app/src/coin.h` line 45.
It is the constant `Indexing.DefaultChainId`.

Where the code and its comments disagree, the model follows the code:

- The comment at `tx_display.c` line 350 says grouping is turned off "if we are not in
  expert mode". The code turns sender grouping off when expert mode is ON. Expert mode
  includes every chain other than `secret-4`, not only the user's preference.
- The comment at line 125 sits in the branch that sets the default-chain flag. It
  describes the other branch.

## Left out

- The JSON token engine (`object_get_value`, `tx_traverse_find`, `tx_getToken`, jsmn) is
  not part of this model. Its answers are data in `TokenQuery.Tx`: per root field either a
  lookup error or the rendered sub-items with the error that ends iteration, the
  chain-id rendering used by `calculate_is_default_chainid`, and a query function for
  display pages. When `chain_id` is absent, the C code queries from token 0; the model
  takes whatever the engine answers.
- `is_msg_type_field`, `is_msg_from_field`, `key_wasm_msg` and the
  `INDEXING_GROUPING_REF_*_SIZE` buffer sizes are defined outside this file. They are
  parameters (`TokenQuery.Schema`).
- `COIN_MAX_CHAINID_LEN` only sizes the chain-id buffer `outVal` (line 103). It is not a
  parameter: it is absorbed into `TokenQuery.Tx.chainId`, which stands for the engine's
  rendering of the first chain-id page into that buffer. The comparison at line 124 is
  against that rendering, so an over-long chain id is compared truncated; the model does
  not truncate it itself.
- `app_mode_expert()` and `parser_tx_obj.own_addr` are device state. They are parameters
  (`TokenQuery.Device`).
- `parser_tx_obj.tek_k` (the transaction's encryption key) is reduced to whether it is set
  (`TokenQuery.Tx.hasTek`). That is all `tx_display_make_friendly` reads of it.
- Strings stand for C byte strings, one `char` per byte. So `|v|` is `strlen(v)` (lines
  273 and 289), and `Grouping.Truncate` is the byte cut of `snprintf` at line 310.
  `Grouping.StepType`, `Grouping.StepFrom` and the grouping lemmas rely on this reading.
  A value holding multi-byte UTF-8 characters has to be given to the model as its bytes.
- `tx_display_readTx` (the parser entry point), `verify_encrypted_wasm_msgs` (commented
  out at its only call site) and the wasm decryption are outside the display logic.
- Logging (`zemu_log_stack`, `ZEMU_LOGF`) has no effect on the result.
- Output buffers: truncation of `out_key` by `strncpy_s` to `outKeyLen`, and of
  `tmp_key`/`tmp_val` during indexing, is not modelled. Keys and labels are whole strings.
  Strings are assumed free of NUL characters.
- Display.TxDisplayQuery: the root key written into `out_key` before the `parser_no_data`
  return (line 483) is not part of the result.
- `current_item_idx` (an `int16_t`) never wraps in the model. The count of sub-items a
  field can yield is not bounded by anything the model sees.
- The filter counters' C width is declared outside this file. They are unbounded `nat`s.
- Visibility.SubitemCount: the `CHECK_PARSER_ERR` at line 374 would return an error code
  as a count. This is unreachable, because every caller builds the cache first, so the
  model reads the cache directly.
- Resolver.Skip: the C skip loops (lines 423 and 434) have no upper bound and would read
  past the seven-entry arrays. The model stops at index 7 instead. This can only happen for
  an index at or past the page total, which `tx_display_query` rejects first.
- Labels.Relabel: the label is not cut to `out_key_len`.
- Labels.TxDisplayMakeFriendly: `key` stands for the string in `parser_tx_obj.query.out_key`
  as the caller's last query left it. A build triggered inside make_friendly re-points
  `query.out_key` to its own locals: to `tmp_key` when indexing (line 247) and to the
  2-byte `outKey` of the chain-id check (line 105). The model does not follow this
  re-pointing; after a fresh build it relabels the caller's key.
- Display.TxDisplayNumItems, Display.TxDisplayQuery, Labels.TxDisplayMakeFriendly,
  Indexing.TxIsExpertMode and the lemmas of `Visibility`, `MsgsPages` and `Display` run
  over the corrected build (`Indexing.IndexRootFields`). After a chain-id failure they
  keep reporting the error, where the source would answer later calls from the stale
  cache; `StaleCache` states what the source does instead.

## Findings

| source | as written | input that shows it | evidently intended | confidence | as-written member | corrected member |
|---|---|---|---|---|---|---|
| app/src/tx_display.c:440 | `*root_item > NUM_REQUIRED_ROOT_PAGES` accepts root index 7, one past the last field | any display index at or past the page total, when the caller has not checked it against `tx_display_numItems` | `>=`: only roots 0..6 resolve | medium; not executed. The only caller in this file checks the range first, so the defect is latent | Resolver.AsWrittenAdmitsPastEnd | Resolver.Resolve |
| app/src/tx_display.c:341 | `cache_valid = 1` is set before `calculate_is_default_chainid` can fail. The cache then stays valid with `is_default_chain` false (expert mode on) while sender grouping is still on and hide-all is stale | two messages with identical senders, with a chain id the engine cannot render (`StaleCache.ExampleTx`) | mark the cache valid only after the whole build succeeds, so expert mode always implies no sender grouping | low; not executed. The app flow likely aborts on the first error and never reads the stale cache | StaleCache.ChainFailureLeavesStaleCache | Indexing.IndexRootFields |

=== FILE: display.dfy ===
/** The two entry points of the display engine, tx_display_numItems and tx_display_query
    (tx_display.c lines 447-494). Both build the cache first and read only the cache. */
module Display {
  import opened ParserTypes
  import opened RootFields
  import opened TokenQuery
  import opened Indexing
  import opened Visibility
  import opened Resolver

  /** The uint8_t running sum of lines 451-454 over the fields from `i` on. */
  function SumPages(v: seq<nat>, i: nat, acc: nat): (n: nat)
    requires |v| == NumRoots && i <= NumRoots && acc < 256
    ensures n < 256
    decreases NumRoots - i
  {
    if i == NumRoots then acc else SumPages(v, i + 1, ToU8(acc + v[i]))
  }

  /** A uint8_t conversion never increases a non-negative value. */
  lemma ToU8Below(x: nat)
    ensures ToU8(x) <= x
  {
  }

  /** Summing with wrap-around after every field is the page total modulo 256. */
  lemma {:induction false} SumPagesWraps(v: seq<nat>, i: nat, acc: nat)
    requires |v| == NumRoots && i <= NumRoots && acc < 256
    ensures SumPages(v, i, acc) == ToU8(acc + Total(v) - Prefix(v, i))
    decreases NumRoots - i
  {
    if i == NumRoots {
      assert ToU8(acc) == acc;
    } else {
      SumPagesWraps(v, i + 1, ToU8(acc + v[i]));
      ToU8Add(acc + v[i], Total(v) - Prefix(v, i + 1));
    }
  }

  /** The page count of lines 451-454 on a built cache: the sum of every field's
      visible count, wrapped to a uint8_t. */
  function PageCount(v: seq<nat>): (n: nat)
    requires |v| == NumRoots
    ensures n == ToU8(Total(v))
  {
    SumPagesWraps(v, 0, 0);
    SumPages(v, 0, 0)
  }

  /** tx_display_numItems: the number of display pages, a uint8_t, so a transaction
      with 256 pages or more reports the total modulo 256. A failed build reports its
      error. */
  function TxDisplayNumItems(tx: Tx, schema: Schema, dev: Device, s: Session): (r: (Session, Result<nat>))
    ensures r.0 == IndexRootFields(tx, schema, dev, s).0
    ensures r.1.Ok? <==> r.0.cacheValid
    ensures r.1.Err? ==> r.1 == Err(IndexRootFields(tx, schema, dev, s).1.error)
    ensures r.1.Ok? ==> r.1.value == ToU8(Total(Visible(dev, r.0)))
  {
    var b := IndexRootFields(tx, schema, dev, s);
    if b.1.Err? then (b.0, Err(b.1.error)) else (b.0, Ok(PageCount(Visible(dev, b.0))))
  }

  /** Lines 465-493 once the cache is built (the second build inside
      tx_display_numItems finds it valid): bound the index by the page count, resolve it
      to a field and sub-item, and ask the engine for that sub-item from the field's
      start token. A visible page of a field the transaction lacks (the fee page outside
      expert mode) answers parser_no_data. */
  function Answer(tx: Tx, entries: Entries, v: seq<nat>, displayIdx: nat): (r: Result<Hit>)
    requires |v| == NumRoots
    ensures displayIdx >= ToU8(Total(v)) ==> r == Err(DisplayIdxOutOfRange)
    ensures r.Ok? ==> displayIdx < Total(v)
  {
    if displayIdx >= PageCount(v) then Err(DisplayIdxOutOfRange)
    else
      match Resolve(v, displayIdx)
      case Err(e) => Err(e)
      case Ok(p) => SubItem(tx, entries, p.root, p.sub)
  }

  /** Lines 478-491: sub-item `sub` of a field, searched from the field's start token to
      the field's depth limit, or parser_no_data when the transaction lacks the field. */
  function SubItem(tx: Tx, entries: Entries, root: RootItem, sub: nat): (r: Result<Hit>)
    ensures !entries[Index(root)].present ==> r == Err(NoData)
    ensures r.Ok? ==> entries[Index(root)].present && r == tx.find(entries[Index(root)].start, MaxLevel(root), sub)
  {
    var entry := entries[Index(root)];
    if !entry.present then Err(NoData) else tx.find(entry.start, MaxLevel(root), sub)
  }

  /** tx_display_query: build the cache, then answer from it; a failed build reports
      its error. */
  function TxDisplayQuery(tx: Tx, schema: Schema, dev: Device, s: Session, displayIdx: nat): (r: (Session, Result<Hit>))
    ensures r.0 == IndexRootFields(tx, schema, dev, s).0
    ensures !r.0.cacheValid ==> r.1 == Err(IndexRootFields(tx, schema, dev, s).1.error)
    ensures r.0.cacheValid && displayIdx >= ToU8(Total(Visible(dev, r.0))) ==> r.1 == Err(DisplayIdxOutOfRange)
    ensures r.1.Ok? ==> displayIdx < Total(Visible(dev, r.0))
  {
    var b := IndexRootFields(tx, schema, dev, s);
    if b.1.Err? then (b.0, Err(b.1.error)) else (b.0, Answer(tx, b.0.cache.entries, Visible(dev, b.0), displayIdx))
  }

  /** Every reachable page answers with its own field and sub-item: the page at flat
      position Prefix + sub asks the engine for sub-item `sub` of `root`, at the field's
      depth limit, or answers parser_no_data when the field is absent. */
  lemma AnswerPage(tx: Tx, entries: Entries, v: seq<nat>, root: RootItem, sub: nat)
    requires |v| == NumRoots
    requires sub < v[Index(root)] && Prefix(v, Index(root)) + sub < ToU8(Total(v))
    ensures Answer(tx, entries, v, Prefix(v, Index(root)) + sub) == SubItem(tx, entries, root, sub)
  {
    ToU8Below(Total(v));
    ResolveAt(v, root, sub);
  }

  /** After a successful build that left session `b`, every query gets the answer b's
      cache gives for the same display index. */
  lemma QueryFromCache(tx: Tx, schema: Schema, dev: Device, s: Session, b: Session)
    requires IndexRootFields(tx, schema, dev, s) == (b, Ok(()))
    ensures forall displayIdx: nat :: TxDisplayQuery(tx, schema, dev, s, displayIdx).1
                                    == Answer(tx, b.cache.entries, Visible(dev, b), displayIdx)
  {
  }

  /** The page property end to end: after a successful build, the page at flat position
      Prefix + sub of the visible counts is sub-item `sub` of field `root`, queried at the
      field's depth limit, or parser_no_data when the field is absent. */
  lemma QueryAnswers(tx: Tx, schema: Schema, dev: Device, s: Session, b: Session, v: seq<nat>,
                     root: RootItem, sub: nat)
    requires IndexRootFields(tx, schema, dev, s) == (b, Ok(())) && v == Visible(dev, b)
    requires sub < v[Index(root)] && Prefix(v, Index(root)) + sub < ToU8(Total(v))
    ensures TxDisplayQuery(tx, schema, dev, s, Prefix(v, Index(root)) + sub).1 == SubItem(tx, b.cache.entries, root, sub)
  {
    QueryFromCache(tx, schema, dev, s, b);
    AnswerPage(tx, b.cache.entries, v, root, sub);
  }

  /** The fee quirk seen from the query side: on the default chain outside expert mode a
      transaction without a fee still has a fee page, and querying it answers
      parser_no_data. */
  lemma FeePageAnswersNoData(tx: Tx, schema: Schema, dev: Device, s: Session)
    requires !s.cacheValid && !dev.expertPref
    requires tx.chainId == Ok(DefaultChainId)
    requires tx.roots[Index(Fee)] == LookupFailed(NoData)
    requires var b := IndexRootFields(tx, schema, dev, s);
      b.1.Ok? && b.0.cache.total != 0 && Total(Visible(dev, b.0)) < 256
    ensures var s' := IndexRootFields(tx, schema, dev, s).0;
      TxDisplayQuery(tx, schema, dev, s, Prefix(Visible(dev, s'), Index(Fee))).1 == Err(NoData)
  {
    var b := IndexRootFields(tx, schema, dev, s);
    var v := Visible(dev, b.0);
    FeePageWithoutFee(tx, schema, dev, s);
    VisibleAt(dev, b.0, Fee);
    PrefixMono(v, Index(Fee) + 1, NumRoots);
    assert 0 < v[Index(Fee)] && Prefix(v, Index(Fee)) < ToU8(Total(v));
    AbsentPageNoData(tx, b.0.cache.entries, v, Fee);
    QueryFromCache(tx, schema, dev, s, b.0);
  }

  /** The first page of a visible field the transaction lacks answers parser_no_data. */
  lemma AbsentPageNoData(tx: Tx, entries: Entries, v: seq<nat>, root: RootItem)
    requires |v| == NumRoots
    requires 0 < v[Index(root)] && Prefix(v, Index(root)) < ToU8(Total(v))
    requires !entries[Index(root)].present
    ensures Answer(tx, entries, v, Prefix(v, Index(root))) == Err(NoData)
  {
    AnswerPage(tx, entries, v, root, 0);
  }

  /** A build is performed at most once: building again from the session a build
      returned gives the same session and outcome, whether the first build succeeded
      or failed. */
  lemma BuildIdempotent(tx: Tx, schema: Schema, dev: Device, s: Session)
    ensures var b := IndexRootFields(tx, schema, dev, s);
      IndexRootFields(tx, schema, dev, b.0) == b
  {
  }

  /** Asking for the same page twice gives the same answer and leaves the session as the
      first query left it. */
  lemma QueryStable(tx: Tx, schema: Schema, dev: Device, s: Session, displayIdx: nat)
    ensures var q := TxDisplayQuery(tx, schema, dev, s, displayIdx);
      TxDisplayQuery(tx, schema, dev, q.0, displayIdx) == q
  {
    BuildIdempotent(tx, schema, dev, s);
  }
}

=== FILE: grouping.dfy ===
/** The two grouping axes of the msgs field (tx_display.c lines 279-325): message type
    and message sender. Each axis keeps a reference value, a match counter and the
    index of its representative occurrence, and is switched off for the rest of the
    build at the first value that differs from the reference. */
module Grouping {
  import opened ParserTypes
  import opened TokenQuery

  /** The state of one axis: msg_*_grouping, filter_msg_*_count, reference_msg_* and
      filter_msg_*_valid_idx. */
  datatype Axis = Axis(on: bool, count: nat, reference: string, validIdx: nat)

  /** Both axes. */
  datatype Axes = Axes(msgType: Axis, msgFrom: Axis)

  /** An axis at the start of a build: enabled, no matches, zeroed reference (lines 211-219). */
  const Fresh: Axis := Axis(true, 0, "", 0)

  const FreshAxes: Axes := Axes(Fresh, Fresh)

  /** snprintf(buf, size, "%s", v): the longest prefix of `v` that leaves room for the
      terminator, so exactly size - 1 characters survive when `v` does not fit. */
  function Truncate(v: string, size: Capacity): (r: string)
    ensures |r| < size
    ensures |r| == if |v| < size then |v| else size - 1
    ensures r <= v
    ensures r == v <==> |v| < size
  {
    if |v| < size then v else v[..size - 1]
  }

  /** Type grouping for one msgs sub-item (lines 285-304). The first type value becomes
      the reference and must fit its buffer; a differing value switches the axis off and
      resets the counter, which is then incremented once more. */
  function StepType(ax: Axis, isType: bool, size: Capacity, v: string, i: nat): (r: Result<Axis>)
    ensures r.Err? <==> ax.on && isType && ax.count == 0 && |v| >= size
    ensures r.Ok? && !(ax.on && isType) ==> r.value == ax
    ensures r.Ok? && ax.on && isType ==>
      && (r.value.on <==> ax.count == 0 || ax.reference == v)
      && (r.value.on ==> r.value.count == ax.count + 1 && r.value.reference == v)
      && (!r.value.on ==> r.value.count == 1)
  {
    if !(ax.on && isType) then Ok(ax)
    else if ax.count == 0 && |v| >= size then Err(UnexpectedType)
    else
      var seeded := if ax.count == 0 then ax.(reference := v, validIdx := i) else ax;
      var checked := if seeded.reference != v then seeded.(on := false, count := 0) else seeded;
      Ok(checked.(count := checked.count + 1))
  }

  /** Sender grouping for one msgs sub-item (lines 307-321). The reference is copied with
      truncation and without an overflow check. */
  function StepFrom(ax: Axis, isFrom: bool, size: Capacity, v: string, i: nat): (r: Axis)
    ensures !(ax.on && isFrom) ==> r == ax
    ensures ax.on && isFrom ==>
      && (r.on <==> if ax.count == 0 then |v| < size else ax.reference == v)
      && (r.on ==> r.count == ax.count + 1 && r.reference == v)
      && (!r.on ==> r.count == 1)
  {
    if !(ax.on && isFrom) then ax
    else
      var seeded := if ax.count == 0 then ax.(reference := Truncate(v, size), validIdx := i) else ax;
      var checked := if seeded.reference != v then seeded.(on := false, count := 0) else seeded;
      checked.(count := checked.count + 1)
  }

  /** Both grouping passes for the msgs sub-item with index `i`, type first. */
  function ObserveMsg(schema: Schema, axes: Axes, key: string, value: string, i: nat): (r: Result<Axes>)
    ensures r.Err? <==>
      axes.msgType.on && schema.isTypeKey(key) && axes.msgType.count == 0 && |value| >= schema.typeRefSize
    ensures r.Err? ==> r.error == UnexpectedType
    ensures r.Ok? && !schema.isTypeKey(key) ==> r.value.msgType == axes.msgType
    ensures r.Ok? && !schema.isFromKey(key) ==> r.value.msgFrom == axes.msgFrom
  {
    var t :- StepType(axes.msgType, schema.isTypeKey(key), schema.typeRefSize, value, i);
    Ok(Axes(t, StepFrom(axes.msgFrom, schema.isFromKey(key), schema.fromRefSize, value, i)))
  }

  /** Type grouping over the sub-items from index `i` on. */
  function FoldType(items: seq<Render>, sel: string -> bool, size: Capacity, i: nat, ax: Axis): Result<Axis>
    requires AllRendered(items) && i <= |items|
    decreases |items| - i
  {
    if i == |items| then Ok(ax)
    else
      var ax' :- StepType(ax, sel(items[i].key), size, items[i].value, i);
      FoldType(items, sel, size, i + 1, ax')
  }

  /** Sender grouping over the sub-items from index `i` on. */
  function FoldFrom(items: seq<Render>, sel: string -> bool, size: Capacity, i: nat, ax: Axis): Axis
    requires AllRendered(items) && i <= |items|
    decreases |items| - i
  {
    if i == |items| then ax
    else FoldFrom(items, sel, size, i + 1, StepFrom(ax, sel(items[i].key), size, items[i].value, i))
  }

  /** The values, in order, of the sub-items from index `i` on whose key `sel` accepts. */
  function Selected(items: seq<Render>, sel: string -> bool, i: nat): seq<string>
    requires AllRendered(items) && i <= |items|
    decreases |items| - i
  {
    if i == |items| then []
    else if sel(items[i].key) then [items[i].value] + Selected(items, sel, i + 1)
    else Selected(items, sel, i + 1)
  }

  /** The index of the first sub-item from `i` on whose key `sel` accepts (|items| if none). */
  function FirstSelected(items: seq<Render>, sel: string -> bool, i: nat): nat
    requires AllRendered(items) && i <= |items|
    decreases |items| - i
  {
    if i == |items| then |items|
    else if sel(items[i].key) then i
    else FirstSelected(items, sel, i + 1)
  }

  predicate AllEqual(vs: seq<string>, ref: string) {
    forall j :: 0 <= j < |vs| ==> vs[j] == ref
  }

  lemma AllEqualCons(v: string, rest: seq<string>, ref: string)
    ensures AllEqual([v] + rest, ref) <==> v == ref && AllEqual(rest, ref)
  {
    var vs := [v] + rest;
    if v == ref && AllEqual(rest, ref) {
      forall j | 0 <= j < |vs| ensures vs[j] == ref {
        if j > 0 { assert vs[j] == rest[j - 1]; }
      }
    }
    if AllEqual(vs, ref) {
      assert vs[0] == v;
      forall j | 0 <= j < |rest| ensures rest[j] == ref {
        assert rest[j] == vs[j + 1];
      }
    }
  }

  /** Once the type axis holds a reference (or is off), the rest of the build keeps it
      on exactly when every later type value equals the reference; a single mismatch
      leaves it off with the counter at 1. */
  lemma {:induction false} FoldTypeSeeded(items: seq<Render>, sel: string -> bool, size: Capacity, i: nat, ax: Axis)
    requires AllRendered(items) && i <= |items|
    requires ax.count > 0 || !ax.on
    ensures FoldType(items, sel, size, i, ax) ==
      Ok(if !ax.on then ax
         else if AllEqual(Selected(items, sel, i), ax.reference) then ax.(count := ax.count + |Selected(items, sel, i)|)
         else Axis(false, 1, ax.reference, ax.validIdx))
    decreases |items| - i
  {
    if i < |items| {
      var v := items[i].value;
      var step := StepType(ax, sel(items[i].key), size, v, i);
      assert step.Ok?;
      FoldTypeSeeded(items, sel, size, i + 1, step.value);
      if ax.on && sel(items[i].key) {
        assert Selected(items, sel, i) == [v] + Selected(items, sel, i + 1);
        if v != ax.reference {
          assert !AllEqual(Selected(items, sel, i), ax.reference) by {
            assert Selected(items, sel, i)[0] == v;
          }
        } else {
          AllEqualCons(v, Selected(items, sel, i + 1), ax.reference);
        }
      }
    }
  }

  /** The message-type axis over a whole field: with no type values it stays fresh; if
      the first type value does not fit the reference buffer the build fails with
      UnexpectedType; otherwise it stays on exactly when all type values equal the
      first, counting all of them, and its representative is the first type item. */
  lemma {:induction false} FoldTypeFresh(items: seq<Render>, sel: string -> bool, size: Capacity, i: nat)
    requires AllRendered(items) && i <= |items|
    ensures var vs := Selected(items, sel, i);
      FoldType(items, sel, size, i, Fresh) ==
        if vs == [] then Ok(Fresh)
        else if |vs[0]| >= size then Err(UnexpectedType)
        else
          var same := AllEqual(vs, vs[0]);
          Ok(Axis(same, if same then |vs| else 1, vs[0], FirstSelected(items, sel, i)))
    decreases |items| - i
  {
    if i < |items| {
      var v := items[i].value;
      if sel(items[i].key) {
        var vs := Selected(items, sel, i);
        var rest := Selected(items, sel, i + 1);
        assert vs == [v] + rest;
        if |v| < size {
          var seeded := Axis(true, 1, v, i);
          assert StepType(Fresh, true, size, v, i) == Ok(seeded);
          FoldTypeSeeded(items, sel, size, i + 1, seeded);
          AllEqualCons(v, rest, v);
        }
      } else {
        FoldTypeFresh(items, sel, size, i + 1);
      }
    }
  }

  /** Sender analogue of `FoldTypeSeeded`. */
  lemma {:induction false} FoldFromSeeded(items: seq<Render>, sel: string -> bool, size: Capacity, i: nat, ax: Axis)
    requires AllRendered(items) && i <= |items|
    requires ax.count > 0 || !ax.on
    ensures FoldFrom(items, sel, size, i, ax) ==
      if !ax.on then ax
      else if AllEqual(Selected(items, sel, i), ax.reference) then ax.(count := ax.count + |Selected(items, sel, i)|)
      else Axis(false, 1, ax.reference, ax.validIdx)
    decreases |items| - i
  {
    if i < |items| {
      var v := items[i].value;
      FoldFromSeeded(items, sel, size, i + 1, StepFrom(ax, sel(items[i].key), size, v, i));
      if ax.on && sel(items[i].key) {
        assert Selected(items, sel, i) == [v] + Selected(items, sel, i + 1);
        if v != ax.reference {
          assert !AllEqual(Selected(items, sel, i), ax.reference) by {
            assert Selected(items, sel, i)[0] == v;
          }
        } else {
          AllEqualCons(v, Selected(items, sel, i + 1), ax.reference);
        }
      }
    }
  }

  /** The sender axis over a whole field: with no sender values it stays fresh;
      otherwise its reference is the first sender value cut to the buffer, and it stays
      on exactly when that value fits the buffer and every sender value equals it. A
      truncated reference therefore switches grouping off instead of grouping on a
      prefix. */
  lemma {:induction false} FoldFromFresh(items: seq<Render>, sel: string -> bool, size: Capacity, i: nat)
    requires AllRendered(items) && i <= |items|
    ensures var vs := Selected(items, sel, i);
      FoldFrom(items, sel, size, i, Fresh) ==
        if vs == [] then Fresh
        else
          var grouped := |vs[0]| < size && AllEqual(vs, vs[0]);
          Axis(grouped, if grouped then |vs| else 1, Truncate(vs[0], size), FirstSelected(items, sel, i))
    decreases |items| - i
  {
    if i < |items| {
      var v := items[i].value;
      if sel(items[i].key) {
        var vs := Selected(items, sel, i);
        var rest := Selected(items, sel, i + 1);
        assert vs == [v] + rest;
        var next := StepFrom(Fresh, true, size, v, i);
        FoldFromSeeded(items, sel, size, i + 1, next);
        if |v| < size {
          assert next == Axis(true, 1, v, i);
          AllEqualCons(v, rest, v);
        } else {
          assert next == Axis(false, 1, Truncate(v, size), i);
        }
      } else {
        FoldFromFresh(items, sel, size, i + 1);
      }
    }
  }
}

=== FILE: indexing.dfy ===
/** The display cache and its build, tx_indexRootFields (tx_display.c lines 193-362),
    together with the chain classifier and the expert-mode gate it consults. */
module Indexing {
  import opened ParserTypes
  import opened RootFields
  import opened TokenQuery
  import opened Grouping

  /** COIN_DEFAULT_CHAINID (coin.h) */
  const DefaultChainId: string := "secret-4"

  /** What the cache records about one root field: root_item_start_token_valid,
      root_item_start_token_idx and root_item_number_subitems (a uint8_t). */
  datatype RootEntry = RootEntry(present: bool, start: nat, count: nat)

  /** A field that was not found: the zeroed entry. */
  const Absent: RootEntry := RootEntry(false, 0, 0)

  type Entries = s: seq<RootEntry> | |s| == NumRoots
    witness [Absent, Absent, Absent, Absent, Absent, Absent, Absent]

  /** display_cache_t */
  datatype Cache = Cache(entries: Entries, total: nat, isDefaultChain: bool)

  /** The per-transaction state the display engine reads: the cache, flags.cache_valid,
      the grouping axes and flags.msg_from_grouping_hide_all. */
  datatype Session = Session(cacheValid: bool, cache: Cache, axes: Axes, hideAll: bool)

  /** The outcome of counting one field: its uint8_t sub-item count and the axes. */
  datatype Counted = Counted(n: nat, axes: Axes)

  /** The outcome of locating and counting one root field. */
  datatype Field = Field(entry: RootEntry, axes: Axes)

  /** The state of the field loop after some fields. */
  datatype Indexed = Indexed(entries: Entries, total: nat, axes: Axes)

  /** The field loop's state before the first field: zeroed cache, fresh axes. */
  const Start: Indexed := Indexed([Absent, Absent, Absent, Absent, Absent, Absent, Absent], 0, FreshAxes)

  /** The counting loop of lines 245-332 from sub-item index `i` with `n` items counted
      so far. An item the engine cannot render aborts; an empty memo value ends the memo
      field without being counted; msgs items go through both grouping passes; after the
      last item the engine's `stop` error ends the field if it is one of the two
      iteration sentinels and aborts the build otherwise. The counter is a uint8_t. */
  function CountItems(schema: Schema, root: RootItem, items: seq<Render>, stop: ParserError,
                      i: nat, n: nat, axes: Axes): (r: Result<Counted>)
    requires i <= |items| && n < 256
    ensures r.Ok? ==> r.value.n < 256
    ensures r.Ok? && root != Msgs ==> r.value.axes == axes
    decreases |items| - i
  {
    if i == |items| then
      if EndsIteration(stop) then Ok(Counted(n, axes)) else Err(stop)
    else
      match items[i]
      case RenderFailed(e) => Err(e)
      case Rendered(key, value) =>
        if root == Memo && value == "" then Ok(Counted(n, axes))
        else if root == Msgs then
          var axes' :- ObserveMsg(schema, axes, key, value, i);
          CountItems(schema, root, items, stop, i + 1, ToU8(n + 1), axes')
        else CountItems(schema, root, items, stop, i + 1, ToU8(n + 1), axes)
  }

  /** One iteration of the field loop (lines 225-338): a field the engine reports as
      absent (parser_no_data) is skipped, any other lookup error aborts, and a located
      field is marked present and counted. */
  function FieldResult(schema: Schema, root: RootItem, lookup: Lookup, axes: Axes): (r: Result<Field>)
    ensures lookup.LookupFailed? ==> (r.Ok? <==> lookup.error == NoData)
    ensures lookup.LookupFailed? && r.Ok? ==> r.value == Field(Absent, axes)
    ensures lookup.Located? && r.Ok? ==>
      r.value.entry.present && r.value.entry.start == lookup.start && r.value.entry.count < 256
    ensures r.Ok? && root != Msgs ==> r.value.axes == axes
  {
    match lookup
    case LookupFailed(e) => if e == NoData then Ok(Field(Absent, axes)) else Err(e)
    case Located(start, items, stop) =>
      var c :- CountItems(schema, root, items, stop, 0, 0, axes);
      Ok(Field(RootEntry(true, start, c.n), c.axes))
  }

  /** The field loop (line 224) from field `i` on; the first error aborts the build. */
  function IndexFrom(tx: Tx, schema: Schema, i: nat, acc: Indexed): (r: Result<Indexed>)
    requires i <= NumRoots
    decreases NumRoots - i
  {
    if i == NumRoots then Ok(acc)
    else
      var f :- FieldResult(schema, FromIndex(i), tx.roots[i], acc.axes);
      IndexFrom(tx, schema, i + 1, Indexed(acc.entries[i := f.entry], acc.total + f.entry.count, f.axes))
  }

  /** tx_is_expert_mode once the cache is built: the user's preference, or a chain id
      other than the default (lines 369-371). */
  predicate IsExpertMode(dev: Device, cache: Cache) {
    dev.expertPref || !cache.isDefaultChain
  }

  /** address_matches_own (lines 183-191): a NULL own address never matches. */
  predicate AddressMatchesOwn(own: Option<string>, addr: string) {
    own.Some? && own.value == addr
  }

  /** The promise of lines 350-353: a built cache never leaves sender grouping on
      while expert mode is on. */
  predicate GateHolds(dev: Device, s: Session) {
    s.cacheValid && IsExpertMode(dev, s.cache) ==> !s.axes.msgFrom.on
  }

  /** Lines 341-359 once the chain id has been rendered: classify it, switch sender
      grouping off in expert mode (the comment at line 350 says the opposite), and decide
      whether grouped senders are the device's own address. */
  function Complete(dev: Device, acc: Indexed, chainId: string): (s: Session)
    ensures s.cacheValid
    ensures s.cache.isDefaultChain <==> chainId == DefaultChainId
    ensures IsExpertMode(dev, s.cache) ==> !s.axes.msgFrom.on
    ensures !IsExpertMode(dev, s.cache) ==> s.axes == acc.axes
    ensures s.hideAll <==> AddressMatchesOwn(dev.ownAddr, acc.axes.msgFrom.reference)
    ensures s.cache.entries == acc.entries && s.cache.total == acc.total
    ensures s.axes.msgType == acc.axes.msgType
    ensures s.axes.msgFrom ==
      (if IsExpertMode(dev, s.cache) then acc.axes.msgFrom.(on := false) else acc.axes.msgFrom)
  {
    var cache := Cache(acc.entries, acc.total, chainId == DefaultChainId);
    var from := if IsExpertMode(dev, cache) then acc.axes.msgFrom.(on := false) else acc.axes.msgFrom;
    Session(true, cache, Axes(acc.axes.msgType, from), AddressMatchesOwn(dev.ownAddr, acc.axes.msgFrom.reference))
  }

  /** tx_indexRootFields with the cache marked valid only once the whole build has
      succeeded. A valid cache is returned unchanged; a failed build leaves the session
      invalid, so the next access rebuilds it. */
  function IndexRootFields(tx: Tx, schema: Schema, dev: Device, s: Session): (r: (Session, Result<()>))
    ensures s.cacheValid ==> r == (s, Ok(()))
    ensures r.1.Ok? <==> r.0.cacheValid
    ensures !s.cacheValid && r.1.Err? ==> r.0 == s
    ensures !s.cacheValid && r.1.Ok? ==>
      (r.0.cache.isDefaultChain <==> tx.chainId == Ok(DefaultChainId))
    ensures GateHolds(dev, s) ==> GateHolds(dev, r.0)
  {
    if s.cacheValid then (s, Ok(()))
    else
      match IndexFrom(tx, schema, 0, Start)
      case Err(e) => (s, Err(e))
      case Ok(acc) =>
        match tx.chainId
        case Err(e) => (s, Err(e))
        case Ok(id) => (Complete(dev, acc, id), Ok(()))
  }

  /** tx_indexRootFields as written: flags.cache_valid is set (line 341) before the chain
      id is classified (line 343), so when classification fails the session stays valid
      with is_default_chain false, the sender axis as the field loop left it and the
      previous hide-all flag. */
  function IndexRootFieldsAsWritten(tx: Tx, schema: Schema, dev: Device, s: Session): (r: (Session, Result<()>))
    ensures s.cacheValid ==> r == (s, Ok(()))
    ensures !s.cacheValid && tx.chainId.Err? ==> r.1.Err?
    ensures tx.chainId.Ok? ==> r == IndexRootFields(tx, schema, dev, s)
  {
    if s.cacheValid then (s, Ok(()))
    else
      match IndexFrom(tx, schema, 0, Start)
      case Err(e) => (s, Err(e))
      case Ok(acc) =>
        var marked := Session(true, Cache(acc.entries, acc.total, false), acc.axes, s.hideAll);
        match tx.chainId
        case Err(e) => (marked, Err(e))
        case Ok(id) => (Complete(dev, acc, id), Ok(()))
  }

  /** tx_is_expert_mode as called from outside (lines 364-371). The `||` short-circuits:
      with the expert preference set the cache is not touched at all. Otherwise the cache
      is built first; when the build fails, is_default_chainid returns the error code
      converted to bool, which is true, so the chain counts as the default one. */
  function TxIsExpertMode(tx: Tx, schema: Schema, dev: Device, s: Session): (r: (Session, bool))
    ensures dev.expertPref ==> r == (s, true)
    ensures !dev.expertPref ==> r.0 == IndexRootFields(tx, schema, dev, s).0
    ensures s.cacheValid ==> r == (s, dev.expertPref || !s.cache.isDefaultChain)
    ensures !r.0.cacheValid ==> (r.1 <==> dev.expertPref)
    ensures !s.cacheValid && r.0.cacheValid ==>
      (r.1 <==> dev.expertPref || tx.chainId != Ok(DefaultChainId))
  {
    if dev.expertPref then (s, true)
    else
      var built := IndexRootFields(tx, schema, dev, s);
      var isDefault := if built.1.Err? then true else built.0.cache.isDefaultChain;
      (built.0, !isDefault)
  }
}

=== FILE: indexing_facts.dfy ===
/** What the cache build computes, stated field by field: how each field is counted,
    how the grouping axes come out of the msgs field, and how the seven fields combine. */
module IndexingFacts {
  import opened ParserTypes
  import opened RootFields
  import opened TokenQuery
  import opened Grouping
  import opened Indexing

  /** The first sub-item index from `i` on at which counting a field stops early: an item
      the engine could not render, or (for memo only) an empty value. |items| if none. */
  function Halt(root: RootItem, items: seq<Render>, i: nat): (h: nat)
    requires i <= |items|
    ensures i <= h <= |items|
    ensures h < |items| ==> items[h].RenderFailed? || (root == Memo && items[h].value == "")
    ensures forall j :: i <= j < h ==> items[j].Rendered? && !(root == Memo && items[j].value == "")
    decreases |items| - i
  {
    if i == |items| then |items|
    else if items[i].RenderFailed? || (root == Memo && items[i].value == "") then i
    else Halt(root, items, i + 1)
  }

  /** Counting any field but msgs: the uint8_t count is the number of sub-items before
      the first unrenderable item or (memo) empty value. An unrenderable item aborts
      with its error; an empty memo value ends the field successfully; otherwise the
      engine's final error ends the field if it is parser_query_no_results or
      parser_no_data and aborts the build if it is anything else. The axes pass through. */
  lemma {:induction false} CountPlain(schema: Schema, root: RootItem, items: seq<Render>, stop: ParserError,
                                      i: nat, n: nat, axes: Axes)
    requires root != Msgs && i <= |items| && n < 256
    ensures var h := Halt(root, items, i);
      CountItems(schema, root, items, stop, i, n, axes) ==
        if h < |items| then
          if items[h].RenderFailed? then Err(items[h].error) else Ok(Counted(ToU8(n + h - i), axes))
        else if EndsIteration(stop) then Ok(Counted(ToU8(n + |items| - i), axes))
        else Err(stop)
    decreases |items| - i
  {
    var h := Halt(root, items, i);
    CountPlainRun(schema, root, items, stop, i, n, axes, h - i);
    CountPlainHalt(schema, root, items, stop, h, ToU8(n + (h - i)), axes);
  }

  /** Counting `k` sub-items before the halting point adds `k` to the uint8_t count. */
  lemma {:induction false} CountPlainRun(schema: Schema, root: RootItem, items: seq<Render>, stop: ParserError,
                                         i: nat, n: nat, axes: Axes, k: nat)
    requires root != Msgs && i <= |items| && i + k <= Halt(root, items, i) && n < 256
    ensures Halt(root, items, i + k) == Halt(root, items, i)
    ensures CountItems(schema, root, items, stop, i, n, axes) ==
      CountItems(schema, root, items, stop, i + k, ToU8(n + k), axes)
    decreases k
  {
    if k > 0 {
      CountPlainStep(schema, root, items, stop, i, n, axes);
      CountPlainRun(schema, root, items, stop, i + 1, ToU8(n + 1), axes, k - 1);
      ToU8Add(n + 1, k - 1);
    }
  }

  /** Where counting stops: the field ends or fails at sub-item `i`. */
  lemma CountPlainHalt(schema: Schema, root: RootItem, items: seq<Render>, stop: ParserError,
                       i: nat, n: nat, axes: Axes)
    requires root != Msgs && i <= |items| && n < 256 && Halt(root, items, i) == i
    ensures CountItems(schema, root, items, stop, i, n, axes) ==
      if i < |items| then
        if items[i].RenderFailed? then Err(items[i].error) else Ok(Counted(n, axes))
      else if EndsIteration(stop) then Ok(Counted(n, axes))
      else Err(stop)
  {
  }

  /** A counted sub-item of a field other than msgs adds one to the uint8_t count. */
  lemma CountPlainStep(schema: Schema, root: RootItem, items: seq<Render>, stop: ParserError,
                       i: nat, n: nat, axes: Axes)
    requires root != Msgs && i < |items| && n < 256 && Halt(root, items, i) != i
    ensures CountItems(schema, root, items, stop, i, n, axes) ==
      CountItems(schema, root, items, stop, i + 1, ToU8(n + 1), axes)
  {
  }

  /** Counting msgs when every sub-item renders: the two grouping passes run over all
      sub-items (the type pass may fail with UnexpectedType), the count is the number of
      sub-items modulo 2^8, and the engine's final error decides as for other fields. */
  lemma {:induction false} CountMsgs(schema: Schema, items: seq<Render>, stop: ParserError,
                                     i: nat, n: nat, t: Axis, f: Axis)
    requires AllRendered(items) && i <= |items| && n < 256
    ensures CountItems(schema, Msgs, items, stop, i, n, Axes(t, f)) ==
      match FoldType(items, schema.isTypeKey, schema.typeRefSize, i, t)
      case Err(e) => Err(e)
      case Ok(t') =>
        if EndsIteration(stop)
        then Ok(Counted(ToU8(n + |items| - i), Axes(t', FoldFrom(items, schema.isFromKey, schema.fromRefSize, i, f))))
        else Err(stop)
    decreases |items| - i
  {
    if i < |items| {
      var step := StepType(t, schema.isTypeKey(items[i].key), schema.typeRefSize, items[i].value, i);
      if step.Ok? {
        var f' := StepFrom(f, schema.isFromKey(items[i].key), schema.fromRefSize, items[i].value, i);
        CountMsgs(schema, items, stop, i + 1, ToU8(n + 1), step.value, f');
        ToU8Add(n + 1, |items| - (i + 1));
      }
    }
  }

  /** Counting msgs or any other field but memo aborts as soon as one sub-item cannot be
      rendered. */
  lemma {:induction false} CountRenderFailure(schema: Schema, root: RootItem, items: seq<Render>, stop: ParserError,
                                              i: nat, n: nat, axes: Axes, j: nat)
    requires root != Memo && i <= j < |items| && n < 256
    requires items[j].RenderFailed?
    ensures CountItems(schema, root, items, stop, i, n, axes).Err?
    decreases |items| - i
  {
    if i < j && items[i].Rendered? {
      if root == Msgs {
        var step := ObserveMsg(schema, axes, items[i].key, items[i].value, i);
        if step.Ok? {
          CountRenderFailure(schema, root, items, stop, i + 1, ToU8(n + 1), step.value, j);
        }
      } else {
        CountRenderFailure(schema, root, items, stop, i + 1, ToU8(n + 1), axes, j);
      }
    }
  }

  /** The outcome of root field `j` on its own, with fresh grouping axes. */
  function FieldOf(tx: Tx, schema: Schema, j: nat): Result<Field>
    requires j < NumRoots
  {
    FieldResult(schema, FromIndex(j), tx.roots[j], FreshAxes)
  }

  /** Only msgs touches the grouping axes, so every other field comes out the same
      whatever axes it is counted with. */
  lemma FieldIgnoresAxes(schema: Schema, root: RootItem, lookup: Lookup, axes: Axes)
    requires root != Msgs
    ensures var here := FieldResult(schema, root, lookup, axes);
      var base := FieldResult(schema, root, lookup, FreshAxes);
      here.Ok? == base.Ok? &&
      (here.Err? ==> here.error == base.error) &&
      (here.Ok? ==> here.value == Field(base.value.entry, axes))
  {
    if lookup.Located? {
      CountPlain(schema, root, lookup.items, lookup.stop, 0, 0, axes);
      CountPlain(schema, root, lookup.items, lookup.stop, 0, 0, FreshAxes);
    }
  }

  /** The sum of the recorded counts of fields `i` to 6. */
  function CountSum(entries: Entries, i: nat): nat
    decreases NumRoots - i
  {
    if i >= NumRoots then 0 else entries[i].count + CountSum(entries, i + 1)
  }

  /** One step of the field loop: field `i` comes out as it would on its own, and the
      axes are still fresh until msgs has been counted. */
  lemma FieldStep(tx: Tx, schema: Schema, i: nat, acc: Indexed)
    requires i < NumRoots
    requires i <= Index(Msgs) ==> acc.axes == FreshAxes
    ensures var here := FieldResult(schema, FromIndex(i), tx.roots[i], acc.axes);
      && here.Ok? == FieldOf(tx, schema, i).Ok?
      && (here.Err? ==> here.error == FieldOf(tx, schema, i).error)
      && (here.Ok? ==> here.value.entry == FieldOf(tx, schema, i).value.entry)
      && (here.Ok? && i != Index(Msgs) ==> here.value.axes == acc.axes)
      && (here.Ok? && i == Index(Msgs) ==> here.value.axes == FieldOf(tx, schema, i).value.axes)
  {
    if FromIndex(i) != Msgs {
      FieldIgnoresAxes(schema, FromIndex(i), tx.roots[i], acc.axes);
    }
  }

  /** The field loop from field `i` on succeeds exactly when every remaining field
      succeeds on its own, and otherwise fails with the error of the first field that
      fails. */
  lemma {:induction false} IndexFromOutcome(tx: Tx, schema: Schema, i: nat, acc: Indexed)
    requires i <= NumRoots
    requires i <= Index(Msgs) ==> acc.axes == FreshAxes
    ensures var r := IndexFrom(tx, schema, i, acc);
      && (r.Ok? <==> forall j :: i <= j < NumRoots ==> FieldOf(tx, schema, j).Ok?)
      && (r.Err? ==> exists j :: i <= j < NumRoots && FieldOf(tx, schema, j) == Err(r.error)
                                 && forall k :: i <= k < j ==> FieldOf(tx, schema, k).Ok?)
    decreases NumRoots - i
  {
    if i < NumRoots {
      var here := FieldResult(schema, FromIndex(i), tx.roots[i], acc.axes);
      FieldStep(tx, schema, i, acc);
      if here.Ok? {
        var f := here.value;
        var acc' := Indexed(acc.entries[i := f.entry], acc.total + f.entry.count, f.axes);
        IndexFromOutcome(tx, schema, i + 1, acc');
        assert IndexFrom(tx, schema, i, acc) == IndexFrom(tx, schema, i + 1, acc');
      } else {
        assert IndexFrom(tx, schema, i, acc) == Err(here.error);
        assert FieldOf(tx, schema, i) == Err(here.error);
      }
    }
  }

  /** On success the field loop from field `i` on keeps the entries before `i`, records
      each remaining field's own outcome, grows total_item_count by their counts, and
      ends with the axes that counting msgs produced. */
  lemma {:induction false} IndexFromValue(tx: Tx, schema: Schema, i: nat, acc: Indexed)
    requires i <= NumRoots
    requires i <= Index(Msgs) ==> acc.axes == FreshAxes
    requires IndexFrom(tx, schema, i, acc).Ok?
    ensures var r := IndexFrom(tx, schema, i, acc).value;
      && (forall j :: 0 <= j < i ==> r.entries[j] == acc.entries[j])
      && (forall j :: i <= j < NumRoots ==> FieldOf(tx, schema, j).Ok? && r.entries[j] == FieldOf(tx, schema, j).value.entry)
      && r.total == acc.total + CountSum(r.entries, i)
      && r.axes == if i <= Index(Msgs) then FieldOf(tx, schema, Index(Msgs)).value.axes else acc.axes
    decreases NumRoots - i
  {
    if i < NumRoots {
      var here := FieldResult(schema, FromIndex(i), tx.roots[i], acc.axes);
      FieldStep(tx, schema, i, acc);
      var f := here.value;
      var acc' := Indexed(acc.entries[i := f.entry], acc.total + f.entry.count, f.axes);
      assert IndexFrom(tx, schema, i, acc) == IndexFrom(tx, schema, i + 1, acc');
      IndexFromValue(tx, schema, i + 1, acc');
      var r := IndexFrom(tx, schema, i + 1, acc').value;
      assert r.entries[i] == f.entry;
      assert r.total == acc.total + CountSum(r.entries, i);
      assert forall j :: 0 <= j < i ==> r.entries[j] == acc.entries[j] by {
        forall j | 0 <= j < i ensures r.entries[j] == acc.entries[j] {
          assert acc'.entries[j] == acc.entries[j];
        }
      }
      assert r.axes == if i <= Index(Msgs) then FieldOf(tx, schema, Index(Msgs)).value.axes else acc.axes;
    }
  }

  /** Every count the build records is a uint8_t, so total_item_count never exceeds
      7 * 255 and the uint16_t accumulator cannot wrap. */
  lemma {:induction false} TotalFits(entries: Entries, i: nat)
    requires i <= NumRoots
    requires forall j :: 0 <= j < NumRoots ==> entries[j].count < 256
    ensures CountSum(entries, i) <= 255 * (NumRoots - i)
    ensures CountSum(entries, i) < 65536
    decreases NumRoots - i
  {
    if i < NumRoots {
      TotalFits(entries, i + 1);
    }
  }

  /** No single field records more pages than total_item_count. */
  lemma {:induction false} CountSumCovers(entries: Entries, i: nat, j: nat)
    requires i <= j < NumRoots
    ensures entries[j].count <= CountSum(entries, i)
    decreases j - i
  {
    if i < j {
      CountSumCovers(entries, i + 1, j);
    }
  }

  /** A field's own outcome records a uint8_t count. */
  lemma FieldCountFits(tx: Tx, schema: Schema, j: nat)
    requires j < NumRoots && FieldOf(tx, schema, j).Ok?
    ensures FieldOf(tx, schema, j).value.entry.count < 256
  {
  }

  /** The cache a successful build leaves behind: every field's entry is that field's own
      outcome (absent fields keep the zeroed entry), total_item_count is the sum of the
      recorded counts and fits its uint16_t, and the build succeeded only because every
      field and the chain id did. */
  lemma BuiltCache(tx: Tx, schema: Schema, dev: Device, s: Session)
    requires !s.cacheValid
    ensures var r := IndexRootFields(tx, schema, dev, s);
      && (r.1.Ok? <==> (forall j :: 0 <= j < NumRoots ==> FieldOf(tx, schema, j).Ok?) && tx.chainId.Ok?)
      && (r.1.Ok? ==>
            && (forall j :: 0 <= j < NumRoots ==> r.0.cache.entries[j] == FieldOf(tx, schema, j).value.entry)
            && (forall j :: 0 <= j < NumRoots && tx.roots[j] == LookupFailed(NoData) ==> r.0.cache.entries[j] == Absent)
            && r.0.cache.total == CountSum(r.0.cache.entries, 0) < 65536
            && var msgs := FieldOf(tx, schema, Index(Msgs)).value.axes;
               && r.0.axes.msgType == msgs.msgType
               && r.0.axes.msgFrom == (if IsExpertMode(dev, r.0.cache) then msgs.msgFrom.(on := false) else msgs.msgFrom)
               && (r.0.hideAll <==> AddressMatchesOwn(dev.ownAddr, msgs.msgFrom.reference)))
  {
    IndexFromOutcome(tx, schema, 0, Start);
    var r := IndexRootFields(tx, schema, dev, s);
    if r.1.Ok? {
      IndexFromValue(tx, schema, 0, Start);
      forall j | 0 <= j < NumRoots ensures r.0.cache.entries[j].count < 256 {
        FieldCountFits(tx, schema, j);
      }
      TotalFits(r.0.cache.entries, 0);
    }
  }
}


=== FILE: labels.dfy ===
/** The label translator, tx_display_make_friendly (tx_display.c lines 510-606): once the
    cache is built, the engine's key path is replaced by a human-readable label. */
module Labels {
  import opened ParserTypes
  import opened RootFields
  import opened TokenQuery
  import opened Indexing

  /** key_subst_t: a raw key path and the label that replaces it. */
  datatype Subst = Subst(raw: string, friendly: string)

  /** Entries for the transaction envelope and the message type (lines 511-519). */
  const CoreLabels: seq<Subst> := [
      Subst("chain_id", "Chain ID"),
      Subst("account_number", "Account"),
      Subst("sequence", "Sequence"),
      Subst("memo", "Memo"),
      Subst("fee/amount", "Fee"),
      Subst("fee/gas", "Gas"),
      Subst("fee/granter", "Granter"),
      Subst("fee/payer", "Payer"),
      Subst("msgs/type", "Type")
    ]

  /** Entries for the tip (lines 521-522). */
  const TipLabels: seq<Subst> := [
      Subst("tip/amount", "Tip"),
      Subst("tip/tipper", "Tipper")
    ]

  /** Entries for bank and staking messages (lines 524-533). */
  const TransferLabels: seq<Subst> := [
      Subst("msgs/inputs/address", "Source Address"),
      Subst("msgs/inputs/coins", "Source Coins"),
      Subst("msgs/outputs/address", "Dest Address"),
      Subst("msgs/outputs/coins", "Dest Coins"),
      Subst("msgs/value/from_address", "From"),
      Subst("msgs/value/to_address", "To"),
      Subst("msgs/value/amount", "Amount"),
      Subst("msgs/value/delegator_address", "Delegator"),
      Subst("msgs/value/validator_address", "Validator")
    ]

  /** Entries for MsgWasmExecute (lines 535-539). */
  const WasmExecuteLabels: seq<Subst> := [
      Subst("msgs/value/contract", "Contract"),
      Subst("msgs/value/msg", "Message"),
      Subst("msgs/value/sender", "Sender"),
      Subst("msgs/value/sent_funds", "Sent Funds")
    ]

  /** Entries for MsgQueryPermit (lines 541-544). */
  const QueryPermitLabels: seq<Subst> := [
      Subst("msgs/value/permit_name", "Permit Name"),
      Subst("msgs/value/allowed_tokens", "Allowed Tokens"),
      Subst("msgs/value/permissions", "Permissions")
    ]

  /** Entries for MsgIBC (lines 546-552). */
  const IbcLabels: seq<Subst> := [
      Subst("msgs/value/receiver", "Receiver"),
      Subst("msgs/value/token", "Token"),
      Subst("msgs/value/source_port", "Source Port"),
      Subst("msgs/value/source_channel", "Source Channel"),
      Subst("msgs/value/timeout_height", "Timeout Height"),
      Subst("msgs/value/timeout_timestamp", "Timeout Timestamp")
    ]

  /** Entries for MsgAuthz (lines 554-557). */
  const AuthzLabels: seq<Subst> := [
      Subst("msgs/value/grant", "Grant"),
      Subst("msgs/value/grantee", "Grantee"),
      Subst("msgs/value/granter", "Granter")
    ]

  /** Entries for MsgSignData (lines 559-561). */
  const SignDataLabels: seq<Subst> := [
      Subst("msgs/value/data", "Data"),
      Subst("msgs/value/signer", "Signer")
    ]

  /** Entries for MsgBeginRedelegate (lines 567-571). */
  const RedelegateLabels: seq<Subst> := [
      Subst("msgs/value/validator_src_address", "Validator Source"),
      Subst("msgs/value/validator_dst_address", "Validator Dest"),
      Subst("msgs/value/description", "Description")
    ]

  /** Entries for governance messages (lines 573-582). */
  const GovernanceLabels: seq<Subst> := [
      Subst("msgs/value/initial_deposit/amount", "Deposit Amount"),
      Subst("msgs/value/initial_deposit/denom", "Deposit Denom"),
      Subst("msgs/value/proposal_type", "Proposal"),
      Subst("msgs/value/proposer", "Proposer"),
      Subst("msgs/value/title", "Title"),
      Subst("msgs/value/depositer", "Sender"),
      Subst("msgs/value/proposal_id", "Proposal ID"),
      Subst("msgs/value/amount", "Amount"),
      Subst("msgs/value/voter", "Description"),
      Subst("msgs/value/option", "Option")
    ]

  /** key_substitutions (lines 510-583), in table order. "msgs/value/amount" appears
      twice, so the second entry is never reached, and "msgs/value/voter" is labelled
      "Description". */
  const KeySubstitutions: seq<Subst> :=
    CoreLabels + TipLabels + TransferLabels + WasmExecuteLabels + QueryPermitLabels
    + IbcLabels + AuthzLabels + SignDataLabels + RedelegateLabels + GovernanceLabels

  /** key_wasm_msg_decrypted (line 585) */
  const DecryptedLabel: string := "Decrypted Msg"

  /** The loop of lines 597-602 from entry `i` on: the index of the first entry whose raw
      key equals `key`, if any. */
  function FirstMatch(table: seq<Subst>, key: string, i: nat): (r: Option<nat>)
    requires i <= |table|
    ensures r.Some? ==> i <= r.value < |table| && table[r.value].raw == key
    ensures r.Some? ==> forall j :: i <= j < r.value ==> table[j].raw != key
    ensures r.None? <==> forall j :: i <= j < |table| ==> table[j].raw != key
    decreases |table| - i
  {
    if i == |table| then None
    else if table[i].raw == key then Some(i)
    else FirstMatch(table, key, i + 1)
  }

  /** The label shown for an output key by lines 590-603 with substitution table
      `table`: the decrypted-message label for the wasm message key of a transaction
      that carries a decryption key; otherwise the label of the first entry for the key;
      otherwise the key itself. */
  function Relabel(table: seq<Subst>, hasTek: bool, keyWasmMsg: string, key: string): (out: string)
    ensures hasTek && key == keyWasmMsg ==> out == DecryptedLabel
    ensures !(hasTek && key == keyWasmMsg) ==>
      forall j :: 0 <= j < |table| && table[j].raw == key && (forall i :: 0 <= i < j ==> table[i].raw != key) ==>
        out == table[j].friendly
    ensures !(hasTek && key == keyWasmMsg) && (forall j :: 0 <= j < |table| ==> table[j].raw != key) ==>
      out == key
  {
    if hasTek && key == keyWasmMsg then DecryptedLabel
    else
      match FirstMatch(table, key, 0)
      case None => key
      case Some(j) => table[j].friendly
  }

  /** The label tx_display_make_friendly gives an output key. */
  function Friendly(hasTek: bool, keyWasmMsg: string, key: string): string {
    Relabel(KeySubstitutions, hasTek, keyWasmMsg, key)
  }

  /** tx_display_make_friendly: build the cache, then relabel the output key; a failed
      build reports its error and leaves the key alone. */
  function TxDisplayMakeFriendly(tx: Tx, schema: Schema, dev: Device, s: Session, key: string): (r: (Session, Result<string>))
    ensures r.0 == IndexRootFields(tx, schema, dev, s).0
    ensures r.1.Ok? <==> r.0.cacheValid
    ensures r.1.Err? ==> r.1 == Err(IndexRootFields(tx, schema, dev, s).1.error)
    ensures r.1.Ok? ==> r.1.value == Friendly(tx.hasTek, schema.keyWasmMsg, key)
  {
    var b := IndexRootFields(tx, schema, dev, s);
    if b.1.Err? then (b.0, Err(b.1.error)) else (b.0, Ok(Friendly(tx.hasTek, schema.keyWasmMsg, key)))
  }

  /** Of two entries with the same raw key only the earlier one is ever used. */
  lemma LaterDuplicateUnused(table: seq<Subst>, a: nat, b: nat, hasTek: bool, keyWasmMsg: string)
    requires a < b < |table| && table[a].raw == table[b].raw
    ensures FirstMatch(table, table[b].raw, 0) != Some(b)
    ensures !(hasTek && table[b].raw == keyWasmMsg) ==>
      Relabel(table, hasTek, keyWasmMsg, table[b].raw) == table[FirstMatch(table, table[b].raw, 0).value].friendly
  {
  }

  /** "msgs/value/amount" is listed at entries 17 and 48, so entry 48 is never used;
      "msgs/value/voter" (entry 49) carries the label of "msgs/value/description"
      (entry 40). */
  lemma TableQuirks()
    ensures KeySubstitutions[17] == KeySubstitutions[48] == Subst("msgs/value/amount", "Amount")
    ensures KeySubstitutions[49] == Subst("msgs/value/voter", "Description")
    ensures KeySubstitutions[40] == Subst("msgs/value/description", "Description")
  {
  }

  /** The first four entries label the single-value root fields, so their pages are
      titled "Chain ID", "Account", "Sequence" and "Memo". */
  lemma RootKeysLabelled(hasTek: bool, keyWasmMsg: string)
    requires !hasTek || keyWasmMsg !in {"chain_id", "account_number", "sequence", "memo"}
    ensures Friendly(hasTek, keyWasmMsg, "chain_id") == "Chain ID"
    ensures Friendly(hasTek, keyWasmMsg, "account_number") == "Account"
    ensures Friendly(hasTek, keyWasmMsg, "sequence") == "Sequence"
    ensures Friendly(hasTek, keyWasmMsg, "memo") == "Memo"
  {
    var t := KeySubstitutions;
    assert t[0] == CoreLabels[0] && t[1] == CoreLabels[1] && t[2] == CoreLabels[2] && t[3] == CoreLabels[3];
    assert FirstMatch(t, "chain_id", 0) == Some(0);
    assert FirstMatch(t, "account_number", 0) == FirstMatch(t, "account_number", 1) == Some(1);
    assert FirstMatch(t, "sequence", 0) == FirstMatch(t, "sequence", 1) == FirstMatch(t, "sequence", 2) == Some(2);
    assert FirstMatch(t, "memo", 0) == FirstMatch(t, "memo", 1) == FirstMatch(t, "memo", 2)
        == FirstMatch(t, "memo", 3) == Some(3);
  }

  /** Scanning a concatenated table finds the first table's match if it has one, and
      otherwise the second table's match, shifted past the first table. */
  lemma FirstMatchAppend(a: seq<Subst>, b: seq<Subst>, key: string)
    ensures FirstMatch(a + b, key, 0) ==
      match FirstMatch(a, key, 0)
      case Some(j) => Some(j)
      case None => (match FirstMatch(b, key, 0) case Some(j) => Some(|a| + j) case None => None)
  {
    var ab := a + b;
    assert forall i :: 0 <= i < |a| ==> ab[i] == a[i];
    assert forall i :: 0 <= i < |b| ==> ab[|a| + i] == b[i];
    match FirstMatch(a, key, 0)
    case Some(j) =>
    case None =>
      match FirstMatch(b, key, 0)
      case Some(j) =>
        assert ab[|a| + j] == b[j];
      case None =>
        assert forall i :: |a| <= i < |ab| ==> ab[i] == b[i - |a|];
  }

  /** A key no entry of either table matches is not matched by their concatenation. */
  lemma FirstMatchNone(a: seq<Subst>, b: seq<Subst>, key: string)
    requires FirstMatch(a, key, 0).None? && FirstMatch(b, key, 0).None?
    ensures FirstMatch(a + b, key, 0).None?
  {
    FirstMatchAppend(a, b, key);
  }

  /** Appending entries to a table never changes a match the table already has. */
  lemma FirstMatchKeeps(a: seq<Subst>, b: seq<Subst>, key: string)
    requires FirstMatch(a, key, 0).Some?
    ensures FirstMatch(a + b, key, 0) == FirstMatch(a, key, 0)
  {
    FirstMatchAppend(a, b, key);
  }

  /** Appending entries to a table does not change the label of a key the table
      already lists. */
  lemma RelabelKeeps(a: seq<Subst>, b: seq<Subst>, hasTek: bool, keyWasmMsg: string, key: string)
    requires FirstMatch(a, key, 0).Some?
    ensures FirstMatch(a + b, key, 0) == FirstMatch(a, key, 0)
    ensures Relabel(a + b, hasTek, keyWasmMsg, key) == Relabel(a, hasTek, keyWasmMsg, key)
  {
    FirstMatchKeeps(a, b, key);
    var j := FirstMatch(a, key, 0).value;
    assert (a + b)[j] == a[j];
  }

  /** Entries in front of a table that do not list a key do not change its label. */
  lemma RelabelSkips(a: seq<Subst>, b: seq<Subst>, hasTek: bool, keyWasmMsg: string, key: string)
    requires FirstMatch(a, key, 0).None?
    ensures FirstMatch(a + b, key, 0).Some? <==> FirstMatch(b, key, 0).Some?
    ensures Relabel(a + b, hasTek, keyWasmMsg, key) == Relabel(b, hasTek, keyWasmMsg, key)
  {
    FirstMatchAppend(a, b, key);
    match FirstMatch(b, key, 0)
    case Some(j) =>
      assert (a + b)[|a| + j] == b[j];
    case None =>
  }

  /** A key first listed in the bank and staking group takes its label from that group. */
  lemma LabelFromTransferGroup(hasTek: bool, keyWasmMsg: string, key: string)
    requires FirstMatch(CoreLabels, key, 0).None? && FirstMatch(TipLabels, key, 0).None?
    requires FirstMatch(TransferLabels, key, 0).Some?
    ensures Friendly(hasTek, keyWasmMsg, key) == Relabel(TransferLabels, hasTek, keyWasmMsg, key)
  {
    FirstMatchNone(CoreLabels, TipLabels, key);
    RelabelSkips(CoreLabels + TipLabels, TransferLabels, hasTek, keyWasmMsg, key);
    RelabelKeeps(CoreLabels + TipLabels + TransferLabels, WasmExecuteLabels, hasTek, keyWasmMsg, key);
    RelabelKeeps(CoreLabels + TipLabels + TransferLabels + WasmExecuteLabels, QueryPermitLabels, hasTek, keyWasmMsg, key);
    RelabelKeeps(CoreLabels + TipLabels + TransferLabels + WasmExecuteLabels + QueryPermitLabels, IbcLabels, hasTek, keyWasmMsg, key);
    RelabelKeeps(CoreLabels + TipLabels + TransferLabels + WasmExecuteLabels + QueryPermitLabels + IbcLabels, AuthzLabels, hasTek, keyWasmMsg, key);
    RelabelKeeps(CoreLabels + TipLabels + TransferLabels + WasmExecuteLabels + QueryPermitLabels + IbcLabels + AuthzLabels, SignDataLabels, hasTek, keyWasmMsg, key);
    RelabelKeeps(CoreLabels + TipLabels + TransferLabels + WasmExecuteLabels + QueryPermitLabels + IbcLabels + AuthzLabels + SignDataLabels, RedelegateLabels, hasTek, keyWasmMsg, key);
    RelabelKeeps(CoreLabels + TipLabels + TransferLabels + WasmExecuteLabels + QueryPermitLabels + IbcLabels + AuthzLabels + SignDataLabels + RedelegateLabels, GovernanceLabels, hasTek, keyWasmMsg, key);
  }

  /** A key first listed in the MsgWasmExecute group takes its label from that group. */
  lemma LabelFromWasmExecuteGroup(hasTek: bool, keyWasmMsg: string, key: string)
    requires FirstMatch(CoreLabels, key, 0).None? && FirstMatch(TipLabels, key, 0).None?
    requires FirstMatch(TransferLabels, key, 0).None?
    requires FirstMatch(WasmExecuteLabels, key, 0).Some?
    ensures Friendly(hasTek, keyWasmMsg, key) == Relabel(WasmExecuteLabels, hasTek, keyWasmMsg, key)
  {
    FirstMatchNone(CoreLabels, TipLabels, key);
    FirstMatchNone(CoreLabels + TipLabels, TransferLabels, key);
    RelabelSkips(CoreLabels + TipLabels + TransferLabels, WasmExecuteLabels, hasTek, keyWasmMsg, key);
    RelabelKeeps(CoreLabels + TipLabels + TransferLabels + WasmExecuteLabels, QueryPermitLabels, hasTek, keyWasmMsg, key);
    RelabelKeeps(CoreLabels + TipLabels + TransferLabels + WasmExecuteLabels + QueryPermitLabels, IbcLabels, hasTek, keyWasmMsg, key);
    RelabelKeeps(CoreLabels + TipLabels + TransferLabels + WasmExecuteLabels + QueryPermitLabels + IbcLabels, AuthzLabels, hasTek, keyWasmMsg, key);
    RelabelKeeps(CoreLabels + TipLabels + TransferLabels + WasmExecuteLabels + QueryPermitLabels + IbcLabels + AuthzLabels, SignDataLabels, hasTek, keyWasmMsg, key);
    RelabelKeeps(CoreLabels + TipLabels + TransferLabels + WasmExecuteLabels + QueryPermitLabels + IbcLabels + AuthzLabels + SignDataLabels, RedelegateLabels, hasTek, keyWasmMsg, key);
    RelabelKeeps(CoreLabels + TipLabels + TransferLabels + WasmExecuteLabels + QueryPermitLabels + IbcLabels + AuthzLabels + SignDataLabels + RedelegateLabels, GovernanceLabels, hasTek, keyWasmMsg, key);
  }

  /** A key listed only in the governance group takes its label from that group. */
  lemma LabelFromGovernanceGroup(hasTek: bool, keyWasmMsg: string, key: string)
    requires FirstMatch(CoreLabels, key, 0).None? && FirstMatch(TipLabels, key, 0).None?
    requires FirstMatch(TransferLabels, key, 0).None? && FirstMatch(WasmExecuteLabels, key, 0).None?
    requires FirstMatch(QueryPermitLabels, key, 0).None? && FirstMatch(IbcLabels, key, 0).None?
    requires FirstMatch(AuthzLabels, key, 0).None? && FirstMatch(SignDataLabels, key, 0).None?
    requires FirstMatch(RedelegateLabels, key, 0).None?
    requires FirstMatch(GovernanceLabels, key, 0).Some?
    ensures Friendly(hasTek, keyWasmMsg, key) == Relabel(GovernanceLabels, hasTek, keyWasmMsg, key)
  {
    FirstMatchNone(CoreLabels, TipLabels, key);
    FirstMatchNone(CoreLabels + TipLabels, TransferLabels, key);
    FirstMatchNone(CoreLabels + TipLabels + TransferLabels, WasmExecuteLabels, key);
    FirstMatchNone(CoreLabels + TipLabels + TransferLabels + WasmExecuteLabels, QueryPermitLabels, key);
    FirstMatchNone(CoreLabels + TipLabels + TransferLabels + WasmExecuteLabels + QueryPermitLabels, IbcLabels, key);
    FirstMatchNone(CoreLabels + TipLabels + TransferLabels + WasmExecuteLabels + QueryPermitLabels + IbcLabels, AuthzLabels, key);
    FirstMatchNone(CoreLabels + TipLabels + TransferLabels + WasmExecuteLabels + QueryPermitLabels + IbcLabels + AuthzLabels, SignDataLabels, key);
    FirstMatchNone(CoreLabels + TipLabels + TransferLabels + WasmExecuteLabels + QueryPermitLabels + IbcLabels + AuthzLabels + SignDataLabels, RedelegateLabels, key);
    RelabelSkips(CoreLabels + TipLabels + TransferLabels + WasmExecuteLabels + QueryPermitLabels + IbcLabels + AuthzLabels + SignDataLabels + RedelegateLabels, GovernanceLabels, hasTek, keyWasmMsg, key);
  }

  /** A key no group lists is shown as it is, unless it is the decrypted wasm message. */
  lemma LabelUnlisted(hasTek: bool, keyWasmMsg: string, key: string)
    requires FirstMatch(CoreLabels, key, 0).None? && FirstMatch(TipLabels, key, 0).None?
    requires FirstMatch(TransferLabels, key, 0).None? && FirstMatch(WasmExecuteLabels, key, 0).None?
    requires FirstMatch(QueryPermitLabels, key, 0).None? && FirstMatch(IbcLabels, key, 0).None?
    requires FirstMatch(AuthzLabels, key, 0).None? && FirstMatch(SignDataLabels, key, 0).None?
    requires FirstMatch(RedelegateLabels, key, 0).None? && FirstMatch(GovernanceLabels, key, 0).None?
    ensures Friendly(hasTek, keyWasmMsg, key) == if hasTek && key == keyWasmMsg then DecryptedLabel else key
  {
    FirstMatchNone(CoreLabels, TipLabels, key);
    FirstMatchNone(CoreLabels + TipLabels, TransferLabels, key);
    FirstMatchNone(CoreLabels + TipLabels + TransferLabels, WasmExecuteLabels, key);
    FirstMatchNone(CoreLabels + TipLabels + TransferLabels + WasmExecuteLabels, QueryPermitLabels, key);
    FirstMatchNone(CoreLabels + TipLabels + TransferLabels + WasmExecuteLabels + QueryPermitLabels, IbcLabels, key);
    FirstMatchNone(CoreLabels + TipLabels + TransferLabels + WasmExecuteLabels + QueryPermitLabels + IbcLabels, AuthzLabels, key);
    FirstMatchNone(CoreLabels + TipLabels + TransferLabels + WasmExecuteLabels + QueryPermitLabels + IbcLabels + AuthzLabels, SignDataLabels, key);
    FirstMatchNone(CoreLabels + TipLabels + TransferLabels + WasmExecuteLabels + QueryPermitLabels + IbcLabels + AuthzLabels + SignDataLabels, RedelegateLabels, key);
    FirstMatchNone(CoreLabels + TipLabels + TransferLabels + WasmExecuteLabels + QueryPermitLabels + IbcLabels + AuthzLabels + SignDataLabels + RedelegateLabels, GovernanceLabels, key);
  }

  // Group membership of single keys. Each lemma from here to the end of the module that
  // is not a labelling lemma evaluates the table scan of one to three label groups for
  // one key. They are split this finely only so that each evaluation stays small for the
  // solver. The labelling lemmas AmountLabelled, VoterLabelled, UnlistedKeyUnchanged and
  // DecryptedOverridesTable chain them together.

  /** A message amount is in neither the envelope nor the tip group. */
  lemma AmountNotEarly()
    ensures FirstMatch(CoreLabels, "msgs/value/amount", 0) == None
    ensures FirstMatch(TipLabels, "msgs/value/amount", 0) == None
  {
  }

  /** The first entry for a message amount is entry 6 of the bank and staking group,
      which labels it "Amount". */
  lemma AmountInTransfer(hasTek: bool, keyWasmMsg: string)
    requires !(hasTek && keyWasmMsg == "msgs/value/amount")
    ensures FirstMatch(TransferLabels, "msgs/value/amount", 0) == Some(6)
    ensures Relabel(TransferLabels, hasTek, keyWasmMsg, "msgs/value/amount") == "Amount"
  {
  }

  /** A message amount is labelled "Amount" by its first table entry (entry 17). */
  lemma AmountLabelled(hasTek: bool, keyWasmMsg: string)
    requires !(hasTek && keyWasmMsg == "msgs/value/amount")
    ensures Friendly(hasTek, keyWasmMsg, "msgs/value/amount") == "Amount"
  {
    AmountNotEarly();
    AmountInTransfer(hasTek, keyWasmMsg);
    LabelFromTransferGroup(hasTek, keyWasmMsg, "msgs/value/amount");
  }

  /** The voter key is in neither the envelope nor the tip group. */
  lemma VoterNotInEnvelopeOrTip()
    ensures FirstMatch(CoreLabels, "msgs/value/voter", 0) == None
    ensures FirstMatch(TipLabels, "msgs/value/voter", 0) == None
  {
  }

  /** The voter key is in neither the bank and staking nor the MsgWasmExecute group. */
  lemma VoterNotInTransferOrWasm()
    ensures FirstMatch(TransferLabels, "msgs/value/voter", 0) == None
    ensures FirstMatch(WasmExecuteLabels, "msgs/value/voter", 0) == None
  {
  }

  /** The voter key is in none of the MsgQueryPermit, MsgIBC and MsgAuthz groups. */
  lemma VoterNotInPermitIbcAuthz()
    ensures FirstMatch(QueryPermitLabels, "msgs/value/voter", 0) == None
    ensures FirstMatch(IbcLabels, "msgs/value/voter", 0) == None
    ensures FirstMatch(AuthzLabels, "msgs/value/voter", 0) == None
  {
  }

  /** The voter key is in neither the MsgSignData nor the MsgBeginRedelegate group. */
  lemma VoterNotInSignOrRedelegate()
    ensures FirstMatch(SignDataLabels, "msgs/value/voter", 0) == None
    ensures FirstMatch(RedelegateLabels, "msgs/value/voter", 0) == None
  {
  }

  /** The voter key is entry 8 of the governance group, which labels it "Description". */
  lemma VoterInGovernance(hasTek: bool, keyWasmMsg: string)
    requires !(hasTek && keyWasmMsg == "msgs/value/voter")
    ensures FirstMatch(GovernanceLabels, "msgs/value/voter", 0) == Some(8)
    ensures Relabel(GovernanceLabels, hasTek, keyWasmMsg, "msgs/value/voter") == "Description"
  {
  }

  /** A vote's voter address is labelled "Description", the label of a proposal's
      description. */
  lemma VoterLabelled(hasTek: bool, keyWasmMsg: string)
    requires !(hasTek && keyWasmMsg == "msgs/value/voter")
    ensures Friendly(hasTek, keyWasmMsg, "msgs/value/voter") == "Description"
  {
    VoterNotInEnvelopeOrTip();
    VoterNotInTransferOrWasm();
    VoterNotInPermitIbcAuthz();
    VoterNotInSignOrRedelegate();
    VoterInGovernance(hasTek, keyWasmMsg);
    LabelFromGovernanceGroup(hasTek, keyWasmMsg, "msgs/value/voter");
  }

  /** A contract-call recipient key is in neither the envelope nor the tip group. */
  lemma RecipientNotInEnvelopeOrTip()
    ensures FirstMatch(CoreLabels, "msgs/value/msg/transfer/recipient", 0) == None
    ensures FirstMatch(TipLabels, "msgs/value/msg/transfer/recipient", 0) == None
  {
  }

  /** A contract-call recipient key is in neither the bank and staking nor the MsgWasmExecute group. */
  lemma RecipientNotInTransferOrWasm()
    ensures FirstMatch(TransferLabels, "msgs/value/msg/transfer/recipient", 0) == None
    ensures FirstMatch(WasmExecuteLabels, "msgs/value/msg/transfer/recipient", 0) == None
  {
  }

  /** A contract-call recipient key is in none of the MsgQueryPermit, MsgIBC and MsgAuthz groups. */
  lemma RecipientNotInPermitIbcAuthz()
    ensures FirstMatch(QueryPermitLabels, "msgs/value/msg/transfer/recipient", 0) == None
    ensures FirstMatch(IbcLabels, "msgs/value/msg/transfer/recipient", 0) == None
    ensures FirstMatch(AuthzLabels, "msgs/value/msg/transfer/recipient", 0) == None
  {
  }

  /** A contract-call recipient key is in neither the MsgSignData nor the MsgBeginRedelegate group. */
  lemma RecipientNotInSignOrRedelegate()
    ensures FirstMatch(SignDataLabels, "msgs/value/msg/transfer/recipient", 0) == None
    ensures FirstMatch(RedelegateLabels, "msgs/value/msg/transfer/recipient", 0) == None
  {
  }

  /** A contract-call recipient key is not in the governance group. */
  lemma RecipientNotInGovernance()
    ensures FirstMatch(GovernanceLabels, "msgs/value/msg/transfer/recipient", 0) == None
  {
  }

  /** A key the table does not list, here a field inside a contract call, is shown as
      it is. */
  lemma UnlistedKeyUnchanged(hasTek: bool, keyWasmMsg: string)
    requires !(hasTek && keyWasmMsg == "msgs/value/msg/transfer/recipient")
    ensures Friendly(hasTek, keyWasmMsg, "msgs/value/msg/transfer/recipient") == "msgs/value/msg/transfer/recipient"
  {
    RecipientNotInEnvelopeOrTip();
    RecipientNotInTransferOrWasm();
    RecipientNotInPermitIbcAuthz();
    RecipientNotInSignOrRedelegate();
    RecipientNotInGovernance();
    LabelUnlisted(hasTek, keyWasmMsg, "msgs/value/msg/transfer/recipient");
  }

  /** The wasm message key is not in the bank and staking group and is entry 1 of the
      MsgWasmExecute group, which labels it "Message". */
  lemma WasmMsgInWasmExecute()
    ensures FirstMatch(TransferLabels, "msgs/value/msg", 0) == None
    ensures FirstMatch(WasmExecuteLabels, "msgs/value/msg", 0) == Some(1)
    ensures Relabel(WasmExecuteLabels, false, "msgs/value/msg", "msgs/value/msg") == "Message"
  {
  }

  /** The wasm message key is in neither the envelope nor the tip group. */
  lemma WasmMsgNotEarly()
    ensures FirstMatch(CoreLabels, "msgs/value/msg", 0) == None
    ensures FirstMatch(TipLabels, "msgs/value/msg", 0) == None
  {
  }

  /** The decrypted-message override takes priority over the table: with a decryption
      key the wasm message key reads "Decrypted Msg", without one it reads "Message",
      its table label. key_wasm_msg is defined outside tx_display.c and is not part of
      this model; the lemma takes it to be "msgs/value/msg", the table's wasm message
      entry. */
  lemma DecryptedOverridesTable()
    ensures Friendly(true, "msgs/value/msg", "msgs/value/msg") == DecryptedLabel
    ensures Friendly(false, "msgs/value/msg", "msgs/value/msg") == "Message"
  {
    WasmMsgNotEarly();
    WasmMsgInWasmExecute();
    LabelFromWasmExecuteGroup(false, "msgs/value/msg", "msgs/value/msg");
  }
}

=== FILE: msgs_pages.dfy ===
/** How many pages the msgs field shows, in closed form: every sub-item has its own page
    except that an axis whose values all agree shows one representative page for all of
    them (and grouped senders equal to the device's own address show none). */
module MsgsPages {
  import opened ParserTypes
  import opened RootFields
  import opened TokenQuery
  import opened Grouping
  import opened Indexing
  import opened IndexingFacts
  import opened Visibility

  /** The number of sub-items from `i` on whose key is neither a type key nor a sender key. */
  function Others(items: seq<Render>, schema: Schema, i: nat): nat
    requires AllRendered(items) && i <= |items|
    decreases |items| - i
  {
    if i == |items| then 0
    else if schema.isTypeKey(items[i].key) || schema.isFromKey(items[i].key) then Others(items, schema, i + 1)
    else 1 + Others(items, schema, i + 1)
  }

  /** No key is both a type key and a sender key. */
  predicate KeysDisjoint(items: seq<Render>, schema: Schema) {
    forall j :: 0 <= j < |items| && items[j].Rendered? ==>
      !(schema.isTypeKey(items[j].key) && schema.isFromKey(items[j].key))
  }

  /** With disjoint keys every sub-item is a type item, a sender item or neither. */
  lemma {:induction false} Partition(items: seq<Render>, schema: Schema, i: nat)
    requires AllRendered(items) && i <= |items| && KeysDisjoint(items, schema)
    ensures Others(items, schema, i) + |Selected(items, schema.isTypeKey, i)| + |Selected(items, schema.isFromKey, i)|
            == |items| - i
    decreases |items| - i
  {
    if i < |items| {
      Partition(items, schema, i + 1);
    }
  }

  /** A successful count of msgs means every sub-item rendered; its count and axes are
      the whole-field grouping folds. */
  lemma MsgsField(schema: Schema, items: seq<Render>, stop: ParserError)
    requires CountItems(schema, Msgs, items, stop, 0, 0, FreshAxes).Ok?
    ensures AllRendered(items)
    ensures var c := CountItems(schema, Msgs, items, stop, 0, 0, FreshAxes).value;
      && c.n == ToU8(|items|)
      && FoldType(items, schema.isTypeKey, schema.typeRefSize, 0, Fresh) == Ok(c.axes.msgType)
      && c.axes.msgFrom == FoldFrom(items, schema.isFromKey, schema.fromRefSize, 0, Fresh)
  {
    if !AllRendered(items) {
      var j :| 0 <= j < |items| && !items[j].Rendered?;
      CountRenderFailure(schema, Msgs, items, stop, 0, 0, FreshAxes, j);
    }
    CountMsgs(schema, items, stop, 0, 0, Fresh, Fresh);
  }

  /** The msgs page count of a built session whose msgs field has the sub-items `items`
      and whose axes are the whole-field grouping folds over them. */
  lemma {:induction false} MsgsCount(dev: Device, schema: Schema, b: Session, items: seq<Render>,
                                     typeAx: Axis, fromAx: Axis)
    requires AllRendered(items) && |items| < 256 && KeysDisjoint(items, schema)
    requires b.cache.entries[Index(Msgs)].count == |items| <= b.cache.total
    requires FoldType(items, schema.isTypeKey, schema.typeRefSize, 0, Fresh) == Ok(typeAx)
    requires fromAx == FoldFrom(items, schema.isFromKey, schema.fromRefSize, 0, Fresh)
    requires b.axes.msgType == typeAx
    requires b.axes.msgFrom == if IsExpertMode(dev, b.cache) then fromAx.(on := false) else fromAx
    requires b.hideAll <==> AddressMatchesOwn(dev.ownAddr, fromAx.reference)
    ensures var types := Selected(items, schema.isTypeKey, 0);
      var senders := Selected(items, schema.isFromKey, 0);
      var typeGrouped := types != [] && AllEqual(types, types[0]);
      var fromGrouped := !IsExpertMode(dev, b.cache)
                         && senders != [] && |senders[0]| < schema.fromRefSize && AllEqual(senders, senders[0]);
      SubitemCount(dev, b, Msgs) ==
        Others(items, schema, 0)
        + (if typeGrouped then 1 else |types|)
        + (if fromGrouped then (if AddressMatchesOwn(dev.ownAddr, senders[0]) then 0 else 1) else |senders|)
  {
    FoldTypeFresh(items, schema.isTypeKey, schema.typeRefSize, 0);
    FoldFromFresh(items, schema.isFromKey, schema.fromRefSize, 0);
    Partition(items, schema, 0);
  }

  /** The msgs page count after a build, for a field with fewer than 256 sub-items and
      disjoint type and sender keys. Type grouping applies when every type value equals
      the first; sender grouping applies on the default chain outside expert mode when
      the first sender value fits its buffer and every sender value equals it. */
  lemma {:induction false} VisibleMsgs(tx: Tx, schema: Schema, dev: Device, s: Session)
    requires !s.cacheValid
    requires tx.roots[Index(Msgs)].Located?
    requires |tx.roots[Index(Msgs)].items| < 256
    requires KeysDisjoint(tx.roots[Index(Msgs)].items, schema)
    ensures var b := IndexRootFields(tx, schema, dev, s);
      var items := tx.roots[Index(Msgs)].items;
      b.1.Ok? ==>
        && AllRendered(items)
        && var types := Selected(items, schema.isTypeKey, 0);
           var senders := Selected(items, schema.isFromKey, 0);
           var typeGrouped := types != [] && AllEqual(types, types[0]);
           var fromGrouped := !dev.expertPref && tx.chainId == Ok(DefaultChainId)
                              && senders != [] && |senders[0]| < schema.fromRefSize && AllEqual(senders, senders[0]);
           SubitemCount(dev, b.0, Msgs) ==
             Others(items, schema, 0)
             + (if typeGrouped then 1 else |types|)
             + (if fromGrouped then (if AddressMatchesOwn(dev.ownAddr, senders[0]) then 0 else 1) else |senders|)
  {
    var b := IndexRootFields(tx, schema, dev, s);
    var lookup := tx.roots[Index(Msgs)];
    var items := lookup.items;
    if b.1.Ok? {
      BuiltCache(tx, schema, dev, s);
      var c := CountItems(schema, Msgs, items, lookup.stop, 0, 0, FreshAxes).value;
      MsgsField(schema, items, lookup.stop);
      assert FieldOf(tx, schema, Index(Msgs)).value == Field(RootEntry(true, lookup.start, c.n), c.axes);
      assert b.0.cache.entries[Index(Msgs)].count == |items|;
      CountSumCovers(b.0.cache.entries, 0, Index(Msgs));
      MsgsCount(dev, schema, b.0, items, c.axes.msgType, c.axes.msgFrom);
    }
  }

  /** A first type value too long for the type reference buffer fails the build with
      parser_unexpected_type and leaves the cache invalid, provided no earlier field
      failed first. Only the msgs sub-items up to that first type item matter: the
      build stops there, whatever follows. */
  lemma TypeReferenceOverflow(tx: Tx, schema: Schema, dev: Device, s: Session, first: nat)
    requires !s.cacheValid
    requires tx.roots[Index(Msgs)].Located?
    requires var items := tx.roots[Index(Msgs)].items;
      && first < |items|
      && (forall j :: 0 <= j <= first ==> items[j].Rendered?)
      && (forall j :: 0 <= j < first ==> !schema.isTypeKey(items[j].key))
      && schema.isTypeKey(items[first].key) && |items[first].value| >= schema.typeRefSize
    requires forall j :: 0 <= j < Index(Msgs) ==> FieldOf(tx, schema, j).Ok?
    ensures IndexRootFields(tx, schema, dev, s) == (s, Err(UnexpectedType))
  {
    var lookup := tx.roots[Index(Msgs)];
    CountUntilOverflow(schema, lookup.items, lookup.stop, 0, 0, Fresh, first);
    assert FieldOf(tx, schema, Index(Msgs)) == Err(UnexpectedType);
    IndexFromOutcome(tx, schema, 0, Start);
  }

  /** Counting msgs from sub-item `i` with the type axis still fresh fails with
      parser_unexpected_type at the first type item, if its value does not fit. */
  lemma {:induction false} CountUntilOverflow(schema: Schema, items: seq<Render>, stop: ParserError,
                                              i: nat, n: nat, from: Axis, first: nat)
    requires i <= first < |items| && n < 256
    requires forall j :: i <= j <= first ==> items[j].Rendered?
    requires forall j :: i <= j < first ==> !schema.isTypeKey(items[j].key)
    requires schema.isTypeKey(items[first].key) && |items[first].value| >= schema.typeRefSize
    ensures CountItems(schema, Msgs, items, stop, i, n, Axes(Fresh, from)) == Err(UnexpectedType)
    decreases first - i
  {
    var it := items[i];
    var observed := ObserveMsg(schema, Axes(Fresh, from), it.key, it.value, i);
    if i < first {
      var from' := observed.value.msgFrom;
      assert observed == Ok(Axes(Fresh, from'));
      CountUntilOverflow(schema, items, stop, i + 1, ToU8(n + 1), from', first);
    }
  }
}

=== FILE: parser_types.dfy ===
/** Error codes, result values and the C integer conversions the display engine relies on. */
module ParserTypes {

  /** The parser_error_t values the display engine distinguishes. `parser_ok` is not an
      error and is represented by `Ok` of `Result`. */
  datatype ParserError =
    | NoData                // parser_no_data: a field is absent
    | QueryNoResults        // parser_query_no_results: an iteration is exhausted
    | DisplayIdxOutOfRange  // parser_display_idx_out_of_range
    | UnexpectedType        // parser_unexpected_type
    | Engine(code: nat)     // any other error reported by the token query engine

  /** The two errors a counting loop treats as "no more sub-items" (line 334). */
  predicate EndsIteration(e: ParserError) {
    e == QueryNoResults || e == NoData
  }

  /** A parser_error_t return together with the value written through the out-parameters. */
  datatype Result<+T> = Ok(value: T) | Err(error: ParserError) {
    predicate IsFailure() {
      Err?
    }

    function PropagateFailure<U>(): Result<U>
      requires Err?
    {
      Err(error)
    }

    function Extract(): T
      requires Ok?
    {
      value
    }
  }

  /** A C pointer that may be NULL. */
  datatype Option<+T> = None | Some(value: T)

  /** The size in bytes of a fixed C buffer; never zero. */
  type Capacity = n: nat | 0 < n witness 1

  /** Conversion of a C integer to uint8_t: reduction modulo 2^8. Dafny's `%` is
      Euclidean, so this is also the conversion for negative values. */
  function ToU8(x: int): (r: nat)
    ensures r < 256
    ensures (x - r) % 256 == 0
    ensures 0 <= x < 256 ==> r == x
  {
    x % 256
  }

  /** Wrapping an intermediate sum to a uint8_t does not change the wrapped result. */
  lemma ToU8Add(a: int, b: int)
    ensures ToU8(ToU8(a) + b) == ToU8(a + b)
  {
    assert a == (a / 256) * 256 + a % 256;
    assert a % 256 + b == a + b - (a / 256) * 256;
  }
}

=== FILE: resolver.dfy ===
/** retrieve_tree_indexes (tx_display.c lines 418-445): the walk that maps a flat display
    index to a root field and a sub-item within it, over the visible count of each field.
    The C skip loops have no upper bound; here a root index that reaches NumRoots stays
    there, which is the explicit bound the model needs. */
module Resolver {
  import opened ParserTypes
  import opened RootFields

  /** Pages of the fields before `r`. */
  function Prefix(v: seq<nat>, r: nat): nat
    requires r <= |v|
  {
    if r == 0 then 0 else Prefix(v, r - 1) + v[r - 1]
  }

  /** Pages of all fields. */
  function Total(v: seq<nat>): nat {
    Prefix(v, |v|)
  }

  /** get_subitem_count for a root index; past the last field the model reads 0. */
  function CountAt(v: seq<nat>, r: nat): nat {
    if r < |v| then v[r] else 0
  }

  /** The skip loops of lines 423-425 and 434-436: the first field from `r` on with pages,
      or NumRoots when there is none. */
  function Skip(v: seq<nat>, r: nat): (r': nat)
    requires |v| == NumRoots
    ensures r' <= NumRoots
    ensures r <= NumRoots ==> r <= r'
    ensures r' < NumRoots ==> v[r'] > 0
    ensures forall j :: r <= j < r' ==> v[j] == 0
    decreases NumRoots - r
  {
    if r >= NumRoots then NumRoots
    else if v[r] == 0 then Skip(v, r + 1)
    else r
  }

  /** The for loop of lines 427-438: `k` more steps from field `r`, sub-item `sub`. */
  function Walk(v: seq<nat>, r: nat, sub: nat, k: nat): (w: (nat, nat))
    requires |v| == NumRoots
    ensures r <= NumRoots ==> r <= w.0 <= NumRoots
    ensures r < NumRoots && w.0 == r ==> w.1 == sub + k
    decreases k
  {
    if k == 0 then (r, sub)
    else if sub + 1 >= CountAt(v, r) then Walk(v, Skip(v, r + 1), 0, k - 1)
    else Walk(v, r, sub + 1, k - 1)
  }

  /** A display page: a root field and the index of a visible sub-item in it. */
  datatype Page = Page(root: RootItem, sub: nat)

  /** Where the walk stands after `pos` steps: on a visible sub-item whose flat index is
      `pos`, or past the last field once `pos` has reached the page total. */
  ghost predicate WalkInv(v: seq<nat>, r: nat, sub: nat, pos: nat)
    requires |v| == NumRoots
  {
    || (r < NumRoots && sub < v[r] && Prefix(v, r) + sub == pos)
    || (r == NumRoots && sub == 0 && pos >= Total(v))
  }

  lemma {:induction false} PrefixSkip(v: seq<nat>, r: nat)
    requires |v| == NumRoots && r <= NumRoots
    ensures Prefix(v, Skip(v, r)) == Prefix(v, r)
    decreases NumRoots - r
  {
    if r < NumRoots && v[r] == 0 {
      PrefixSkip(v, r + 1);
    }
  }

  lemma {:induction false} PrefixMono(v: seq<nat>, a: nat, b: nat)
    requires a <= b <= |v|
    ensures Prefix(v, a) <= Prefix(v, b)
    decreases b - a
  {
    if a < b {
      PrefixMono(v, a, b - 1);
    }
  }

  /** Each step of the walk advances the flat index by one page. */
  lemma {:induction false} WalkKeeps(v: seq<nat>, r: nat, sub: nat, pos: nat, k: nat)
    requires |v| == NumRoots && WalkInv(v, r, sub, pos)
    ensures WalkInv(v, Walk(v, r, sub, k).0, Walk(v, r, sub, k).1, pos + k)
    decreases k
  {
    if k > 0 {
      if sub + 1 >= CountAt(v, r) {
        var r' := Skip(v, r + 1);
        PrefixSkip(v, if r < NumRoots then r + 1 else NumRoots);
        if r' == NumRoots && r < NumRoots {
          PrefixSkip(v, r + 1);
        }
        WalkKeeps(v, r', 0, pos + 1, k - 1);
      } else {
        WalkKeeps(v, r, sub + 1, pos + 1, k - 1);
      }
    }
  }

  /** The walk from the start of retrieve_tree_indexes satisfies the invariant. */
  lemma WalkFromStart(v: seq<nat>, k: nat)
    requires |v| == NumRoots
    ensures WalkInv(v, Walk(v, Skip(v, 0), 0, k).0, Walk(v, Skip(v, 0), 0, k).1, k)
  {
    PrefixSkip(v, 0);
    WalkKeeps(v, Skip(v, 0), 0, 0, k);
  }

  /** retrieve_tree_indexes as written: the guard `*root_item > NUM_REQUIRED_ROOT_PAGES`
      (line 440) lets a walk that ran past the last field through. */
  function ResolveAsWritten(v: seq<nat>, displayIndex: nat): (r: Result<(nat, nat)>)
    requires |v| == NumRoots
    ensures r.Ok? ==> r.value.0 <= NumRoots
  {
    var w := Walk(v, Skip(v, 0), 0, displayIndex);
    WalkFromStart(v, displayIndex);
    if w.0 > NumRoots then Err(NoData) else Ok(w)
  }

  /** retrieve_tree_indexes with the guard `>=`: an index below the page total resolves
      to the field and sub-item whose flat position it is, and any other index fails with
      parser_no_data. */
  function Resolve(v: seq<nat>, displayIndex: nat): (r: Result<Page>)
    requires |v| == NumRoots
    ensures r.Ok? <==> displayIndex < Total(v)
    ensures r.Err? ==> r.error == NoData
    ensures r.Ok? ==> r.value.sub < v[Index(r.value.root)]
    ensures r.Ok? ==> Prefix(v, Index(r.value.root)) + r.value.sub == displayIndex
  {
    var w := Walk(v, Skip(v, 0), 0, displayIndex);
    WalkFromStart(v, displayIndex);
    if w.0 >= NumRoots then Err(NoData)
    else
      PrefixMono(v, w.0 + 1, NumRoots);
      Ok(Page(FromIndex(w.0), w.1))
  }

  /** A flat page index names at most one (field, sub-item) pair, so the resolver's
      answer is the only one there is. */
  lemma PageUnique(v: seq<nat>, r1: nat, s1: nat, r2: nat, s2: nat)
    requires |v| == NumRoots && r1 < NumRoots && r2 < NumRoots
    requires s1 < v[r1] && s2 < v[r2]
    requires Prefix(v, r1) + s1 == Prefix(v, r2) + s2
    ensures r1 == r2 && s1 == s2
  {
    if r1 < r2 {
      PrefixMono(v, r1 + 1, r2);
    } else if r2 < r1 {
      PrefixMono(v, r2 + 1, r1);
    }
  }

  /** The converse of Resolve's contract: the flat position of a visible sub-item
      resolves back to that field and sub-item. */
  lemma ResolveAt(v: seq<nat>, root: RootItem, sub: nat)
    requires |v| == NumRoots && sub < v[Index(root)]
    ensures Resolve(v, Prefix(v, Index(root)) + sub) == Ok(Page(root, sub))
  {
    var idx := Prefix(v, Index(root)) + sub;
    PrefixMono(v, Index(root) + 1, NumRoots);
    var p := Resolve(v, idx).value;
    PageUnique(v, Index(p.root), p.sub, Index(root), sub);
    RootTable(p.root, root);
  }

  /** The last page belongs to the last field with pages, at its last sub-item. */
  lemma LastPage(v: seq<nat>)
    requires |v| == NumRoots && Total(v) > 0
    ensures var r := Resolve(v, Total(v) - 1);
      && r.Ok?
      && r.value.sub == v[Index(r.value.root)] - 1
      && forall j :: Index(r.value.root) < j < NumRoots ==> v[j] == 0
  {
    var p := Resolve(v, Total(v) - 1).value;
    var i := Index(p.root);
    PrefixMono(v, i + 1, NumRoots);
    forall j | i < j < NumRoots ensures v[j] == 0 {
      PrefixMono(v, i + 1, j);
      PrefixMono(v, j + 1, NumRoots);
    }
  }

  /** Below the page total both guards agree, so the off-by-one cannot be reached
      through a caller that checks the index against the total first. */
  lemma AsWrittenAgreesBelowTotal(v: seq<nat>, displayIndex: nat)
    requires |v| == NumRoots && displayIndex < Total(v)
    ensures ResolveAsWritten(v, displayIndex) ==
      Ok((Index(Resolve(v, displayIndex).value.root), Resolve(v, displayIndex).value.sub))
  {
  }

  /** At or past the page total the as-written guard still reports success, with root
      index NumRoots, which names no field; the corrected resolver fails. */
  lemma AsWrittenAdmitsPastEnd(v: seq<nat>, displayIndex: nat)
    requires |v| == NumRoots && displayIndex >= Total(v)
    ensures ResolveAsWritten(v, displayIndex) == Ok((NumRoots, 0))
    ensures Resolve(v, displayIndex) == Err(NoData)
  {
    WalkFromStart(v, displayIndex);
    var w := Walk(v, Skip(v, 0), 0, displayIndex);
    if w.0 < NumRoots {
      PrefixMono(v, w.0 + 1, NumRoots);
    }
  }
}

=== FILE: root_fields.dfy ===
/** The seven required root fields of a transaction, in display order. */
module RootFields {

  /** NUM_REQUIRED_ROOT_PAGES */
  const NumRoots: nat := 7

  /** root_item_e: the order of the constructors is the display order. */
  datatype RootItem = ChainId | AccountNumber | Sequence | Fee | Memo | Msgs | Tip

  /** The enum value of a root field. */
  function Index(r: RootItem): (i: nat)
    ensures i < NumRoots
  {
    match r
    case ChainId => 0
    case AccountNumber => 1
    case Sequence => 2
    case Fee => 3
    case Memo => 4
    case Msgs => 5
    case Tip => 6
  }

  /** The root field with enum value `i`; inverse of `Index`. */
  function FromIndex(i: nat): (r: RootItem)
    requires i < NumRoots
    ensures Index(r) == i
  {
    if i == 0 then ChainId
    else if i == 1 then AccountNumber
    else if i == 2 then Sequence
    else if i == 3 then Fee
    else if i == 4 then Memo
    else if i == 5 then Msgs
    else Tip
  }

  /** get_required_root_item: the JSON key under which a root field is looked up. The
      "?" fallback of the C switch is unreachable for a value of this type. */
  function RequiredKey(r: RootItem): string {
    match r
    case ChainId => "chain_id"
    case AccountNumber => "account_number"
    case Sequence => "sequence"
    case Fee => "fee"
    case Memo => "memo"
    case Msgs => "msgs"
    case Tip => "tip"
  }

  /** get_root_max_level: the traversal depth used when a root field is queried. */
  function MaxLevel(r: RootItem): (level: nat)
    ensures level == 1 <==> r == Fee || r == Tip
    ensures level != 1 ==> level == 2
  {
    match r
    case Fee => 1
    case Tip => 1
    case _ => 2
  }

  /** The enumeration and the key table agree: enum values round-trip through
      `FromIndex`, and no two root fields share a key, so each lookup targets exactly
      one field. */
  lemma RootTable(r: RootItem, s: RootItem)
    ensures FromIndex(Index(r)) == r
    ensures RequiredKey(r) == RequiredKey(s) ==> r == s
  {
  }
}

=== FILE: stale_cache.dfy ===
/** What happens when the chain id cannot be classified after the field loop succeeded
    (tx_display.c lines 341-343). As written, flags.cache_valid is already set, so the
    failed build leaves a session every later call accepts as built, with the default
    chain flag false (expert mode on) but sender grouping still on. */
module StaleCache {
  import opened ParserTypes
  import opened RootFields
  import opened TokenQuery
  import opened Grouping
  import opened Indexing
  import opened IndexingFacts
  import opened Visibility

  /** A session before any build: the cache is invalid and zeroed. */
  const Cleared: Session :=
    Session(false, Cache(Start.entries, 0, false), FreshAxes, false)

  /** For any transaction whose fields all index, whose senders are grouped, and whose
      chain id cannot be rendered: the as-written build fails but leaves a session that
      breaks the expert-mode gate and that later builds accept unchanged, while the
      corrected build leaves the session invalid, so every retry reports the failure. */
  lemma ChainFailureLeavesStaleCache(tx: Tx, schema: Schema, dev: Device, s: Session)
    requires !s.cacheValid
    requires forall j :: 0 <= j < NumRoots ==> FieldOf(tx, schema, j).Ok?
    requires tx.chainId.Err?
    requires FieldOf(tx, schema, Index(Msgs)).value.axes.msgFrom.on
    ensures var a := IndexRootFieldsAsWritten(tx, schema, dev, s);
      && a.1 == Err(tx.chainId.error)
      && a.0.cacheValid && IsExpertMode(dev, a.0.cache)
      && a.0.axes.msgFrom.on && !GateHolds(dev, a.0)
      && IndexRootFieldsAsWritten(tx, schema, dev, a.0) == (a.0, Ok(()))
    ensures IndexRootFields(tx, schema, dev, s) == (s, Err(tx.chainId.error))
  {
    IndexFromOutcome(tx, schema, 0, Start);
    IndexFromValue(tx, schema, 0, Start);
  }

  /** The example: two messages signed by the same sender, on a transaction whose chain
      id the engine cannot render, viewed by a user who has not chosen expert mode. */
  const Sender: string := "secret1sender"
  const SenderKey: string := "msgs/value/sender"

  const TwoSends: seq<Render> := [Rendered(SenderKey, Sender), Rendered(SenderKey, Sender)]

  const ExampleSchema: Schema :=
    Schema(k => k == "msgs/type", k => k == SenderKey, 64, 64, "msgs/value/msg")

  const ExampleTx: Tx :=
    Tx([LookupFailed(NoData), LookupFailed(NoData), LookupFailed(NoData), LookupFailed(NoData),
        LookupFailed(NoData), Located(0, TwoSends, QueryNoResults), LookupFailed(NoData)],
       Err(UnexpectedType), (start, level, item) => Err(NoData), false)

  const ExampleDevice: Device := Device(false, None)

  /** In the example the as-written build leaves expert mode on (the chain is not
      secret-4 as far as the cache knows) yet shows the two sender pages as one, although
      expert mode is meant to show every sender; the corrected build keeps the session
      invalid. */
  lemma SendersCollapseInExpertMode()
    ensures var a := IndexRootFieldsAsWritten(ExampleTx, ExampleSchema, ExampleDevice, Cleared);
      && a.1.Err? && a.0.cacheValid
      && IsExpertMode(ExampleDevice, a.0.cache)
      && a.0.cache.entries[Index(Msgs)].count == 2
      && SubitemCount(ExampleDevice, a.0, Msgs) == 1
    ensures !IndexRootFields(ExampleTx, ExampleSchema, ExampleDevice, Cleared).0.cacheValid
  {
    var tx, schema := ExampleTx, ExampleSchema;
    ExampleMsgsField();
    ExampleFieldsIndex();
    ChainFailureLeavesStaleCache(tx, schema, ExampleDevice, Cleared);
    IndexFromValue(tx, schema, 0, Start);
    var a := IndexRootFieldsAsWritten(tx, schema, ExampleDevice, Cleared);
    CountSumCovers(a.0.cache.entries, 0, Index(Msgs));
  }

  /** The example's msgs field: two pages, no type values, both senders grouped. */
  lemma ExampleMsgsField()
    ensures var msgs := FieldOf(ExampleTx, ExampleSchema, Index(Msgs));
      && msgs.Ok? && msgs.value.entry.count == 2
      && msgs.value.axes.msgFrom.on && msgs.value.axes.msgFrom.count == 2
      && msgs.value.axes.msgType.count == 0
  {
    var schema := ExampleSchema;
    assert AllRendered(TwoSends);
    CountMsgs(schema, TwoSends, QueryNoResults, 0, 0, Fresh, Fresh);
    FoldTypeFresh(TwoSends, schema.isTypeKey, schema.typeRefSize, 0);
    FoldFromFresh(TwoSends, schema.isFromKey, schema.fromRefSize, 0);
    assert schema.isFromKey(SenderKey) && !schema.isTypeKey(SenderKey);
    assert TwoSends[0].key == TwoSends[1].key == SenderKey && TwoSends[0].value == TwoSends[1].value == Sender;
    assert Selected(TwoSends, schema.isTypeKey, 1) == [];
    assert Selected(TwoSends, schema.isTypeKey, 0) == [];
    assert Selected(TwoSends, schema.isFromKey, 1) == [Sender];
    assert Selected(TwoSends, schema.isFromKey, 0) == [Sender, Sender];
  }

  /** Every field of the example indexes: msgs as above, the others are absent. */
  lemma ExampleFieldsIndex()
    ensures forall j :: 0 <= j < NumRoots ==> FieldOf(ExampleTx, ExampleSchema, j).Ok?
  {
    ExampleMsgsField();
    forall j | 0 <= j < NumRoots ensures FieldOf(ExampleTx, ExampleSchema, j).Ok? {
      if j != Index(Msgs) {
        assert ExampleTx.roots[j] == LookupFailed(NoData);
      }
    }
  }
}

=== FILE: token_query.dfy ===
/** The token query engine, seen from the display engine: what a transaction document
    answers to the queries tx_display.c makes. The engine itself (jsmn tokens,
    object_get_value, tx_traverse_find, tx_getToken) is not part of this model. */
module TokenQuery {
  import opened ParserTypes
  import opened RootFields

  /** The answer to one sub-item query: tx_traverse_find succeeded and tx_getToken
      rendered the full key path and the first page of the value, or tx_getToken failed. */
  datatype Render = Rendered(key: string, value: string) | RenderFailed(error: ParserError)

  /** The answer to object_get_value for one required root key. A located field lists the
      answers for sub-item indexes 0, 1, ..., |items| - 1; `stop` is the error
      tx_traverse_find returns for index |items|. */
  datatype Lookup =
    | LookupFailed(error: ParserError)
    | Located(start: nat, items: seq<Render>, stop: ParserError)

  /** The key path and value token that tx_traverse_find yields for a display query. */
  datatype Hit = Hit(key: string, token: nat)

  /** One lookup per root field, in `RootItem` order. */
  type Lookups = s: seq<Lookup> | |s| == NumRoots
    witness var none := LookupFailed(NoData); [none, none, none, none, none, none, none]

  /** A parsed transaction as the engine presents it.
      - `roots[i]`: the lookup of the root key with enum value i;
      - `chainId`: the first page of item 0 below the recorded chain_id start token, rendered
        into the chain id buffer (calculate_is_default_chainid), so a chain id longer than
        that buffer appears here truncated, or the engine's error;
      - `find(start, maxLevel, itemIndex)`: tx_traverse_find for a display query;
      - `hasTek`: parser_tx_obj.tek_k, whether the transaction carries an encryption key. */
  datatype Tx = Tx(
    roots: Lookups,
    chainId: Result<string>,
    find: (nat, nat, nat) -> Result<Hit>,
    hasTek: bool)

  /** Definitions the display engine uses from other parts of the application:
      is_msg_type_field, is_msg_from_field, the sizes of the two grouping reference
      buffers, and key_wasm_msg (the key path of an encrypted wasm message). */
  datatype Schema = Schema(
    isTypeKey: string -> bool,
    isFromKey: string -> bool,
    typeRefSize: Capacity,
    fromRefSize: Capacity,
    keyWasmMsg: string)

  /** Inputs owned by the device: the user's expert-mode preference (app_mode_expert)
      and the address of the signing key (parser_tx_obj.own_addr, possibly NULL). */
  datatype Device = Device(expertPref: bool, ownAddr: Option<string>)

  /** Every sub-item of a field rendered without error. */
  predicate AllRendered(items: seq<Render>) {
    forall j :: 0 <= j < |items| ==> items[j].Rendered?
  }
}

=== FILE: visibility.dfy ===
/** The visible-count policy, get_subitem_count (tx_display.c lines 373-416): how many
    pages each root field shows once expert-mode gating and msgs grouping are applied. */
module Visibility {
  import opened ParserTypes
  import opened RootFields
  import opened TokenQuery
  import opened Grouping
  import opened Indexing
  import IndexingFacts

  /** The signed change grouping makes to the msgs page count (lines 388-399): an
      enabled axis with matches removes them all and gives back one representative page,
      except that grouped senders equal to the device's own address give back none. */
  function GroupingAdjustment(s: Session): (d: int)
    ensures -(s.axes.msgType.count + s.axes.msgFrom.count) <= d <= 0
    ensures !s.axes.msgType.on && !s.axes.msgFrom.on ==> d == 0
  {
    var t := s.axes.msgType;
    var f := s.axes.msgFrom;
    (if t.on && t.count > 0 then 1 - t.count else 0)
    + (if f.on && f.count > 0 then (if s.hideAll then 0 else 1) - f.count else 0)
  }

  /** get_subitem_count on a built cache. The int32_t intermediate is returned as a
      uint8_t. Outside expert mode chain_id, account_number and sequence are hidden and
      fee shows exactly one page (its amount), even when the transaction has no fee. */
  function SubitemCount(dev: Device, s: Session, root: RootItem): (n: nat)
    ensures n < 256
    ensures s.cache.total == 0 ==> n == 0
    ensures s.cache.total != 0 && !IsExpertMode(dev, s.cache) ==>
      (root in {ChainId, AccountNumber, Sequence} ==> n == 0) && (root == Fee ==> n == 1)
    ensures s.cache.total != 0 && (root in {Memo, Tip} || (IsExpertMode(dev, s.cache) && root != Msgs)) ==>
      n == ToU8(s.cache.entries[Index(root)].count)
    ensures s.cache.total != 0 && root == Msgs ==>
      n == ToU8(s.cache.entries[Index(Msgs)].count + GroupingAdjustment(s))
  {
    if s.cache.total == 0 then 0
    else
      var raw: int := s.cache.entries[Index(root)].count;
      var expert := IsExpertMode(dev, s.cache);
      ToU8(
        match root
        case ChainId => if expert then raw else 0
        case AccountNumber => if expert then raw else 0
        case Sequence => if expert then raw else 0
        case Msgs => raw + GroupingAdjustment(s)
        case Memo => raw
        case Fee => if expert then raw else 1
        case Tip => raw)
  }

  /** The visible page count of every root field, in display order. */
  function Visible(dev: Device, s: Session): (v: seq<nat>)
    ensures |v| == NumRoots
  {
    VisibleFrom(dev, s, 0)
  }

  /** The visible counts of the fields from enum value `i` on. */
  function VisibleFrom(dev: Device, s: Session, i: nat): (v: seq<nat>)
    requires i <= NumRoots
    ensures |v| == NumRoots - i
    decreases NumRoots - i
  {
    if i == NumRoots then [] else [SubitemCount(dev, s, FromIndex(i))] + VisibleFrom(dev, s, i + 1)
  }

  lemma {:induction false} VisibleFromAt(dev: Device, s: Session, i: nat, j: nat)
    requires i <= j < NumRoots
    ensures VisibleFrom(dev, s, i)[j - i] == SubitemCount(dev, s, FromIndex(j))
    decreases j - i
  {
    if i < j {
      VisibleFromAt(dev, s, i + 1, j);
    }
  }

  /** Position Index(root) of the visible counts is that field's visible count. */
  lemma VisibleAt(dev: Device, s: Session, root: RootItem)
    ensures Visible(dev, s)[Index(root)] == SubitemCount(dev, s, root) < 256
  {
    VisibleFromAt(dev, s, 0, Index(root));
    RootTable(root, root);
  }

  /** On a chain other than secret-4 every page of chain_id, account_number, sequence and
      fee is shown whatever the user's preference, and sender grouping is off, so no
      sender page can disappear from view. */
  lemma NonDefaultChainDisclosesAll(tx: Tx, schema: Schema, dev: Device, s: Session, root: RootItem)
    requires !s.cacheValid
    requires tx.chainId.Ok? && tx.chainId.value != DefaultChainId
    requires root in {ChainId, AccountNumber, Sequence, Fee}
    ensures var b := IndexRootFields(tx, schema, dev, s);
      b.1.Ok? ==>
        && IsExpertMode(dev, b.0.cache)
        && !b.0.axes.msgFrom.on
        && (b.0.cache.total != 0 ==> SubitemCount(dev, b.0, root) == b.0.cache.entries[Index(root)].count)
  {
    var b := IndexRootFields(tx, schema, dev, s);
    if b.1.Ok? {
      IndexingFacts.BuiltCache(tx, schema, dev, s);
      IndexingFacts.FieldCountFits(tx, schema, Index(root));
    }
  }

  /** The fee quirk: on the default chain outside expert mode, a transaction without a
      fee field still shows one fee page whenever any other field has sub-items. */
  lemma FeePageWithoutFee(tx: Tx, schema: Schema, dev: Device, s: Session)
    requires !s.cacheValid && !dev.expertPref
    requires tx.chainId == Ok(DefaultChainId)
    requires tx.roots[Index(Fee)] == LookupFailed(NoData)
    ensures var b := IndexRootFields(tx, schema, dev, s);
      b.1.Ok? && b.0.cache.total != 0 ==>
        && !b.0.cache.entries[Index(Fee)].present
        && SubitemCount(dev, b.0, Fee) == 1
  {
    IndexingFacts.BuiltCache(tx, schema, dev, s);
  }
}
